=== FILE: README.md ===
# pgconn in Dafny

This project models pgconn, a small C library on top of libpq. It covers
four parts of the library:

- **Session wrapper (`pgconn.c`).** One database connection with a bounded
  error buffer, statement calls, prepared statements, transactions, a
  reconnect limiter and a lock guard.
- **Connection pool (`pgpool.c`).** Pool creation, the acquire/release
  bookkeeping, teardown, the counters, and the per-connection statement
  calls that pooled connections use.
- **Cell decoders (`pgtypes.c`).** Integers, booleans, strings, bytes,
  UUIDs, and the fractional seconds of timestamps.
- **Row iterator (`pgiter.h`).** The comment on `pg_iter_next` says it
  advances to the next row, but its body only compares the cursor with the
  row count. The cursor moves in `pg_iter_get`, one row per field read.
  The model follows the code.

Nothing talks to a server. The modules are:

| module | file | what it holds |
|---|---|---|
| `Wrappers` | wrappers.dfy | `Option` and `Result` |
| `Text` | text.dfy | C strings as `seq<char>`, `snprintf` truncation, base-10 `strtol` with white space, sign and overflow clamping, `%d` formatting |
| `Driver` | driver.dfy | result statuses, requests, the readiness loop shared by the session and the pool (`select` / `PQconsumeInput` / `PQisBusy`), and classification of the first result |
| `Session` | session.dfy | `pgconn.c` |
| `Pooled` | pooled.dfy | `pgpool.c` lines 469-800 |
| `Pool` | pool.dfy | the rest of `pgpool.c` |
| `PgTypes` | pgtypes.dfy | `pgtypes.c` |
| `PgIter` | pgiter.dfy | `pgiter.h` |

The driver's answers are inputs to the model:

- **Statements.** A `Driver.Reply` holds everything libpq answers during one
  statement:
  - whether the send was accepted;
  - whether the socket is valid;
  - one event per pass of the readiness loop;
  - the first result.

  A trace that ends while the loop is still waiting gives the outcome
  `Pending`: the call has not returned yet.
- **Acquire.** `Pool.Oracle` says whether the k-th `SELECT 1` validation
  succeeds and whether the k-th connection attempt of the call succeeds.
- **Blocking wait.** A wait on the pool's condition variable is the outcome
  `Waits`.

The model keeps the C integer widths where they matter:

- `next_conn_id` wraps as a `uint32_t`.
- `idle_count` wraps as a `size_t` on decrement.
- The active count is a `size_t` difference.
- `long` is 64 bits wide (LP64).

One `char` of a Dafny string stands for one byte of the C string, and
texts hold no NUL byte. So a length or a cut "to 511 characters" is a
count of bytes, as `snprintf`, `strlen` and `PQgetlength` count them.

## Model

| member | source | states |
|---|---|---|
| Text.Truncate | pgconn.c:45 | `snprintf` into a buffer of n+1 bytes keeps a prefix of at most n characters; the whole text when it fits, exactly n characters when it does not |
| Text.StrToL | pgtypes.c:17 | `strtol` stops within the text, saturates into the target range, and reports nothing consumed with value 0 |
| Text.StrToLParses | pgtypes.c:17 | white space, an optional sign and a digit run are consumed completely and yield their signed value, clamped |
| Text.StrToLConsumedIsDecimal | pgtypes.c:17-18 | conversely, a non-empty text consumed completely has that decimal syntax |
| Text.StrToLNonNegativeBound | pgtypes.c:226-229 | a non-negative result is below 10 to the power of the characters consumed |
| Text.StrToLFormatInt | pgtypes.c:17 | round trip: `strtol` reads back any in-range value printed by `%d`, consuming the whole text |
| Driver.Poll | pgconn.c:89-130 | the readiness loop; a cancel is only ever issued together with the time-out message |
| Driver.PollDecided | pgconn.c:89-130 | the loop's outcome is fixed by the first event that stops it; retries before it do not matter and later events are never read |
| Driver.PollCompletesIff | pgconn.c:126-128 | the loop reports completion exactly when the first stopping event is a consumed input with the driver no longer busy |
| Driver.PollCancelsIff | pgconn.c:96-107 | a cancel is requested exactly when the first stopping event is an expired `select` |
| Driver.PollSkipsRetries | pgconn.c:109-113 | interrupted `select` calls and still-busy passes in front of a trace change nothing |
| Driver.SelectFailureFitsBuffer | pgconn.c:115-118 | a failed `select` is reported, with no cancel, as a prefix of "select() failed: " plus the reason that fits the 256-byte buffer |
| Driver.Classify | pgconn.c:358-363 | the first result is accepted exactly when its status is in the accepted set; otherwise its server message, or the no-result message when there is none |
| Driver.Await | pgpool.c:540-566 | the asynchronous path is accepted exactly when the send and the socket are good, the loop completes and the status is accepted; pending exactly when the loop has not finished; a refused send reports the driver's text |
| Session.SetError | pgconn.c:38-47 | NULL or empty text clears the slot; otherwise the slot holds a prefix of the message of at most 511 characters, and the whole message when it fits; nothing else changes |
| Session.Run | pgconn.c:337-398 | a missing connection or query is refused with its message and nothing is sent; success exactly when the first result is COMMAND_OK or TUPLES_OK and, with a time-out, the loop completed; a rejection is recorded through the error slot, and a first result with any other status is refused with the server's own message, which becomes `last_error`; a negative time-out never waits and never cancels |
| Session.Execute | pgconn.c:337-398 | the query is sent as a simple statement; success exactly as above; a failing status is refused with the server's message, recorded as `last_error`; without options the call is synchronous |
| Session.Query | pgconn.c:416-475 | the result is handed back exactly when the same statement through execute would succeed, and it is the driver's result |
| Session.QueryParamsFull | pgconn.c:495-562 | the session is unchanged apart from `last_error`; with a connection and a query, exactly the query and the parameter count (a negative one as zero) are sent; success exactly on COMMAND_OK or TUPLES_OK; a failing status is refused with the server's message, recorded as `last_error`; a missing result has its own message |
| Session.ExecutePreparedFull | pgconn.c:652-715 | the prepared statement is sent by name; a missing connection or name is refused; success exactly on COMMAND_OK or TUPLES_OK; a failing status is refused with the server's message, recorded as `last_error` |
| Session.Prepare | pgconn.c:609-633 | always synchronous; name, query and parameter count are sent; success exactly on COMMAND_OK, so TUPLES_OK is a failure; any other status is refused with the server's message, recorded as `last_error` |
| Session.DeallocateCommand | pgconn.c:769-771 | the command is a prefix of "DEALLOCATE " plus the name, shorter than the 512-byte buffer, and the whole command when it fits |
| Session.Deallocate | pgconn.c:761-775 | the command above is run through execute with no options, so the call never waits; a missing name is refused |
| Session.Begin | pgconn.c:795-811 | an open transaction is refused without sending anything; otherwise BEGIN is sent and the flag is set exactly when it succeeds |
| Session.EndTransaction | pgconn.c:829-875 | with no open transaction the call refuses and sends nothing; otherwise the statement is sent, the call returns what execute returns, succeeding exactly on COMMAND_OK or TUPLES_OK, and the flag is cleared whatever the outcome |
| Session.Commit | pgconn.c:829-843 | refuses with "No active transaction to commit" when none is open; otherwise sends COMMIT, returns what execute returns, succeeding exactly on COMMAND_OK or TUPLES_OK, and clears the flag |
| Session.Rollback | pgconn.c:861-875 | refuses with "No active transaction to rollback" when none is open; otherwise sends ROLLBACK, returns what execute returns, succeeding exactly on COMMAND_OK or TUPLES_OK, and clears the flag |
| Session.BeginThenCommitCloses | pgconn.c:795-843 | after a successful BEGIN the flag is set, a second BEGIN sends nothing, and COMMIT sends COMMIT and always closes the transaction |
| Session.Reconnect | pgconn.c:283-317 | at the limit, nothing is attempted and only the error changes; otherwise the transaction is dropped and the attempt counted, and success resets the count to zero |
| Session.ReconnectLimitBounds | pgconn.c:289-305 | against a server that never comes back, a limit m with a attempts already made lets exactly min(n, m - a) of n reconnects reach the driver |
| Session.ErrorMessage | pgconn.c:915-932 | never empty; NULL gives "Invalid connection"; then the stored error, then the driver's non-empty text, then "No error information available" |
| Session.RejectionIsReported | pgconn.c:915-932 | the text a call rejects with is what the next error query returns, cut to 511 characters |
| Session.TryLock | pgconn.c:1054-1060 | true exactly for a thread-safe connection whose mutex is free; false for NULL |
| Session.TimevalOf | pgconn.c:83-87 | for a non-negative time-out, microseconds below 10^6 and a multiple of 1000, and seconds times 1000 plus milliseconds give back the time-out |
| Pooled.Fresh | pgpool.c:80-86 | a new pooled connection carries its id, is idle, has no transaction and no error |
| Pooled.Run | pgpool.c:531-566 | a missing query is refused with its message; the error slot holds a text exactly when the call is rejected, and then holds that text; nothing else changes |
| Pooled.Execute | pgpool.c:531-573 | always the asynchronous path; success exactly on COMMAND_OK or TUPLES_OK after a completed loop, with the error cleared; a failing status records the server's message untruncated |
| Pooled.Query | pgpool.c:576-616 | the result is handed back exactly when execute would succeed |
| Pooled.Prepare | pgpool.c:619-658 | sent asynchronously; success exactly on COMMAND_OK; a missing name or query is refused |
| Pooled.ExecutePrepared | pgpool.c:661-702 | sent by name; success exactly on COMMAND_OK or TUPLES_OK; a missing name is refused |
| Pooled.Deallocate | pgpool.c:705-729 | runs "DEALLOCATE " plus the whole name, never truncated, and succeeds exactly when that statement does |
| Pooled.Begin | pgpool.c:732-746 | an open transaction is refused without sending anything; otherwise BEGIN is sent, the call returns what execute returns, succeeding exactly on COMMAND_OK or TUPLES_OK after a completed loop, and the flag is set exactly when it succeeds |
| Pooled.EndTransaction | pgpool.c:749-776 | with no open transaction the call refuses; otherwise the statement is sent, the call returns what execute returns and keeps the error execute left, succeeding exactly on COMMAND_OK or TUPLES_OK after a completed loop; once the call returns the flag is clear whatever the outcome |
| Pooled.Commit | pgpool.c:749-761 | refuses when no transaction is open; otherwise sends COMMIT, returns what execute returns, succeeding exactly on COMMAND_OK or TUPLES_OK, and the returned call leaves no transaction |
| Pooled.Rollback | pgpool.c:764-776 | refuses when no transaction is open; otherwise sends ROLLBACK, returns what execute returns, succeeding exactly on COMMAND_OK or TUPLES_OK, and the returned call leaves no transaction |
| Pooled.ErrorMessage | pgpool.c:784-800 | NULL gives "Invalid connection"; a stored error wins even when empty; then the non-empty driver text; otherwise "No error information available"; the result is empty only when an empty error is stored |
| Pooled.EmptyQueryLeavesEmptyError | pgpool.c:558-562 | an empty statement answered with EMPTY_QUERY stores the empty server message, and the error query then returns an empty text |
| Pool.NextId | pgpool.c:86 | the id counter stays a `uint32_t` and counts up by one until it wraps |
| Pool.Normalize | pgpool.c:38-46 | min, max and time-out are positive; positive settings are kept; auto-reconnect always ends up on; a valid configuration keeps min at most max |
| Pool.Eager | pgpool.c:240-249 | at most one slot per attempt, every slot idle |
| Pool.EagerCounts | pgpool.c:240-249 | exactly one slot per successful attempt, and one id consumed per attempt |
| Pool.Create | pgpool.c:182-272 | refused for a missing configuration or conninfo, max below 1, or min above max; a created pool keeps the invariant, is initialised, has between 1 and min slots, all idle |
| Pool.CreateSucceedsIff | pgpool.c:251-258 | a valid configuration gives a pool exactly when some eager attempt connects; it then has one slot per success, and the id counter has advanced by min |
| Pool.ScanFrom | pgpool.c:353-384 | the scan never grows the table, keeps the configuration and flags, and any slot it hands out is in use |
| Pool.ScanKeepsInv | pgpool.c:353-384 | hand-out, replacement in place and compaction all keep `idle_count` equal to the idle slots |
| Pool.Pass | pgpool.c:324-419 | one pass of acquire: NULL for an uninitialised or shutting-down pool with nothing changed; a handed-out slot is in use; a new connection is appended last and only within max; NULL at once only for a zero time-out; a wait is timed exactly for a positive time-out |
| Pool.AcquireStep | pgpool.c:324-419 | one pass as written: a handed-out slot is in use; the invariant is kept; with every slot busy it grows the pool when there is room and the connection succeeds, and otherwise returns NULL at once for a zero time-out or waits |
| Pool.AcquireKeepsInv | pgpool.c:351-396 | every branch of acquire keeps the invariant: table within max and `idle_count` equal to the idle slots |
| Pool.AcquireHandsFirstIdle | pgpool.c:353-384 | when the first idle slot passes validation, or is replaced, it is the slot handed out; a healthy one changes only its in-use flag, a replaced one is a fresh connection with the next id |
| Pool.SkippedIdleSlot | pgpool.c:364-371 | an idle, healthy slot can be passed over: after compaction the scan moves past the slot shifted into place, and the caller waits |
| Pool.AcquireStepFixed | pgpool.c:364-371 | the same pass with the shifted slot re-examined: it keeps every promise of the pass as written, and gives up or waits only when every slot is busy, so `idle_count` is then 0 |
| Pool.RescanLeavesNoIdle | pgpool.c:353-384 | with the re-examining scan, ending without a hand-out means every remaining slot is busy |
| Pool.RetriesAfter | pgpool.c:402-414 | an untimed wait always goes round again; a timed wait goes round again only when signalled |
| Pool.Deadline | pgpool.c:340-346 | for a positive time-out, the nanoseconds end below 10^9 and the deadline is exactly now plus the time-out |
| Pool.SlotOf | pgpool.c:431-437 | the first slot holding the connection, or none when the pool does not own it |
| Pool.Release | pgpool.c:422-466 | a connection the pool does not own changes nothing; otherwise ROLLBACK is sent exactly when a transaction was open, the slot gets the connection back idle with no transaction or error, `idle_count` grows by one, and nothing else in the pool changes |
| Pool.ReleaseKeepsInv | pgpool.c:455-457 | releasing a connection whose slot is in use keeps the invariant |
| Pool.DoubleReleaseBreaksInv | pgpool.c:455-457 | releasing an idle connection counts it twice, breaks the invariant, and can make the active count wrap to 2^64 - 1 |
| Pool.AcquireReleaseRoundTrip | pgpool.c:324-466 | acquiring a healthy, clean first idle slot and releasing it gives back the pool as it was |
| Pool.Destroy | pgpool.c:275-321 | nothing for an uninitialised pool; otherwise at most ten waits, each made only while connections were active, stopping early once all are idle; the active count left is reported, and every connection is closed in array order |
| Pool.ActiveConnections | pgpool.c:803-812 | zero for an uninitialised pool, and a `size_t` value otherwise |
| Pool.IdleConnections | pgpool.c:815-824 | zero for an uninitialised pool |
| Pool.TotalConnections | pgpool.c:827-836 | zero for an uninitialised pool |
| Pool.CountersAgree | pgpool.c:803-836 | under the invariant, active counts the busy slots, idle counts the others, and together they make the total |
| PgTypes.DecodeWhole | pgtypes.c:28-63 | valid exactly when the cell is not NULL and `strtol` consumes all of it, and then the value is what `strtol` returned; invalid gives 0; the value is within the type |
| PgTypes.GetInt | pgtypes.c:9-25 | the value is an `int`; invalid gives 0; a valid value is the full-consumption parse |
| PgTypes.GetLong | pgtypes.c:28-44 | valid exactly on full consumption, returning the `strtol` value; invalid gives 0; the value is a `long` |
| PgTypes.GetLongLong | pgtypes.c:47-63 | valid exactly on full consumption, returning the `strtoll` value; invalid gives 0; the value is a `long long` |
| PgTypes.NullIsInvalid | pgtypes.c:11-13 | a NULL cell gives an invalid 0 for all three integer decoders |
| PgTypes.EmptyReadsZero | pgtypes.c:17-24 | an empty text is valid and reads as 0 |
| PgTypes.IntRoundTrip | pgtypes.c:9-25 | every `int` printed with `%d` reads back exactly |
| PgTypes.LongRoundTrip | pgtypes.c:28-63 | every `long` printed with `%ld` reads back exactly through both 64-bit decoders |
| PgTypes.GetIntAccepts | pgtypes.c:17-24 | leading white space and a sign are accepted, and an in-range value is decoded exactly |
| PgTypes.GetIntRejectsOutOfRange | pgtypes.c:18-21 | a decimal text outside the `int` range is invalid, also beyond the `long` range |
| PgTypes.ValidMeansDecimal | pgtypes.c:18 | a non-empty valid text is white space, an optional sign and digits, and nothing else |
| PgTypes.LongOverflowReportedValid | pgtypes.c:36-43 | any decimal text is reported valid with its value saturated into the `long` range |
| PgTypes.LongOverflowExample | pgtypes.c:36-43 | LONG_MAX + 1 reads as a valid LONG_MAX |
| PgTypes.GetLongChecked | pgtypes.c:36-43 | the `long` decoder with the overflow check; invalid gives 0 |
| PgTypes.GetLongCheckedExact | pgtypes.c:36-43 | the checked decoder accepts a decimal text exactly when its value is a `long`, and returns it unchanged |
| PgTypes.GetBool | pgtypes.c:104-116 | valid exactly for non-NULL cells; true exactly when the first character is one of t T 1 y Y o O |
| PgTypes.BoolOffReadsTrue | pgtypes.c:112-115 | every true spelling reads as true, but so do "off" and "OFF"; the empty text reads as false |
| PgTypes.GetBoolFixed | pgtypes.c:112-115 | the boolean decoder that tells "on" from "off" by the second character: valid exactly for non-NULL cells, and true only for texts starting with one of t T 1 y Y o O |
| PgTypes.BoolFixedSpellings | pgtypes.c:112 | the fixed decoder reads every listed true spelling as true and every false spelling as false |
| PgTypes.BoolFixedAgrees | pgtypes.c:113-115 | the fix agrees with the original on every text not starting with o or O |
| PgTypes.GetString | pgtypes.c:120-128 | valid exactly for non-NULL cells, returning the cell's text |
| PgTypes.GetStringBuf | pgtypes.c:132-148 | never writes past the buffer; for a non-empty buffer the count is below its size and the text is NUL-terminated; valid exactly for a non-NULL cell and a non-empty buffer; the copy is the truncation of the cell to size - 1 characters |
| PgTypes.StringBufCopies | pgtypes.c:140-147 | a text shorter than the buffer is copied whole; a longer one yields exactly size - 1 characters; the copy is always a prefix |
| PgTypes.GetBinary | pgtypes.c:152-162 | NULL gives no data, length 0 and invalid; otherwise the cell's data and its length |
| PgTypes.BinaryMatchesString | pgtypes.c:152-162 | the binary view agrees with the string view and adds its length |
| PgTypes.GetUuid | pgtypes.c:165-177 | a valid result is the cell's own text; NULL is invalid |
| PgTypes.UuidAcceptsIff | pgtypes.c:169-174 | a text is accepted exactly when it is five groups of 8, 4, 4, 4 and 12 characters joined by hyphens |
| PgTypes.FractionNanos | pgtypes.c:223-242 | the fractional part gives nanoseconds below 10^9 that are a multiple of 1000 |
| PgTypes.FractionOfDigits | pgtypes.c:228-240 | a fraction of k ≤ 6 digits is scaled up exactly to nanoseconds; a longer one is truncated to microseconds |
| PgTypes.ScaleToMicros | pgtypes.c:231-238 | the two loops bring a fraction of d digits to six digits: multiplied by 10^(6-d), or divided by 10^(d-6) |
| PgTypes.TimestampFraction | pgtypes.c:223-242 | the loop computation agrees with the closed form: below 10^9 nanoseconds and a multiple of 1000 |
| PgIter.Create | pgiter.h:20-27 | the cursor starts at row 0 with the result's row and field counts, or zero for NULL, inside its bound |
| PgIter.Next | pgiter.h:31-33 | reports whether a row remains and leaves the cursor where it is |
| PgIter.CellAt | pgiter.h:40 | a value exists exactly for a field number within the result |
| PgIter.Get | pgiter.h:38-41 | past the end, NULL and no move; otherwise the field of the current row, and the cursor moves one row on; the bound is kept |
| PgIter.SecondFieldIsFromNextRow | pgiter.h:38-41 | two reads in a row take their fields from two consecutive rows |
| PgIter.ReadsColumn | pgiter.h:38-41 | n reads of one field return the column from the cursor on, and move the cursor n rows |
| PgIter.DrainColumn | pgiter.h:20-41 | a fresh iterator returns its whole column in row order, after which `Next` says no and `Get` returns NULL |

## Left out

- NULL `pgconn_t` pointers: the session calls take a session value, so the
  early returns for a NULL connection are not modelled. A NULL `raw_conn`
  is modelled by `connected`. The two calls that answer a NULL connection
  with a distinct result take an `Option`: `Session.ErrorMessage` and
  `Session.TryLock`.
- The `_safe` variants and manual locking: they take the session mutex and
  then behave as the unguarded call. Mutexes and the condition variable are
  concurrency, not sequential logic.
- `retry_on_failure` in the query options: no code path reads it.
- The driver:
  - `PQconnectdb`, `PQsend*`, `PQexec*`, `select`, `PQcancel` and
    `PQsetnonblocking` are only seen through their answers.
  - The `SET statement_timeout` step of `create_connection` (pgpool.c:115-126)
    does not change the connection's state, so it is left out.
  - Draining leftover results (`consume_results`, `consume_all_results`)
    only talks to the driver.
- Time:
  - activity time stamps and the `gettimeofday` failure path of acquire;
  - the 100 ms sleeps of destroy, of which only the wait count is kept;
  - the re-arming of the `select` time-out on every pass in pgpool.c:497-500.
- Pooled.Execute: the time-out parameter of the pooled calls is not a
  parameter of the model. It only decides whether an expired `select` can
  occur, and that is up to the event trace.
- Pool.AcquireStep: models one pass of the loop. Between passes other
  threads change the pool, so the whole loop is not modelled.
  `Pool.RetriesAfter` states what happens after a wait.
- Session.Reconnect: `reconnect_attempts` is a C `int`. With no limit
  (a maximum of 0 or less), the C counter would overflow once it passes
  `INT_MAX`, which is undefined behaviour. The model counts on without
  bound.
- Pool.Release: finds the connection by its id, not by its pointer. Every
  pool starts its ids from 1, so a connection taken from another pool whose
  id matches one of this pool's slots is treated as owned: that slot is
  overwritten with it, a ROLLBACK is reported if it had a transaction open,
  and `idle_count` grows by one. The C code compares pointers at
  pgpool.c:431-443 and refuses such a connection. Ids within one pool also
  repeat after 2^32 connections. `idle_count` is not wrapped on increment,
  because it cannot reach 2^64.
- Pool.Destroy: the connection-close callback, freeing memory and
  destroying the mutex are left out. What remains is the waits, the
  warning count and the ids closed in order.
- The `connection_init` and `connection_close` callbacks, and every
  allocation failure path.
- `pg_get_float`, `pg_get_double`, and the `strptime`/`mktime` part of
  `pg_get_timestamp`: they are floating-point code and C-library
  date parsing. Of the timestamp decoder, only the fractional seconds are
  modelled.
- PgTypes.GetUuid: assumes a non-NULL `valid` pointer. With a NULL one and
  a NULL cell, the source would pass NULL to `strlen`.
- Accessors not listed above: `pgconn_in_transaction`, `pgconn_clear_error`,
  `pgconn_last_activity`, `pgconn_connection_id` and
  `pgpool_get_raw_connection`. Connection creation, destruction and
  validation in `pgconn.c`, and `main.c`, are also not part of this model.

## Findings

| source | as written | input that shows it | evidently intended | confidence | as-written member | corrected member |
|---|---|---|---|---|---|---|
| pgpool.c:364-371 | after a failed replacement the array is compacted and the loop's `continue` moves on to `i + 1`, so the slot shifted into `i` is never examined | two idle slots; the first fails validation and cannot be replaced, the second is healthy, and no new connection can be made: acquire waits (or returns NULL) while an idle slot remains | re-examine index `i` after compaction, so a pass only waits when no slot is idle | high, not executed | Pool.SkippedIdleSlot | Pool.AcquireStepFixed |
| pgtypes.c:112-115 | true when the first character is `o` or `O` | the text "off" decodes as true | "on" true and "off" false, as the comment's list of spellings says | high, not executed | PgTypes.BoolOffReadsTrue | PgTypes.BoolFixedSpellings |
| pgtypes.c:36-43 | `errno` is not checked after `strtol` | "9223372036854775808" decodes as a valid 9223372036854775807 | out-of-range text is invalid, as `pg_get_int` already treats it | medium, not executed | PgTypes.LongOverflowExample | PgTypes.GetLongCheckedExact |

=== FILE: driver.dfy ===
/**
 * The database client driver (libpq) as seen by the session and pool code.
 *
 * Nothing here talks to a server: every answer the driver would give during
 * one call (did the send succeed, what did `select` report on each pass,
 * what result came back) is an input, and the functions below say what the
 * library does with those answers. The readiness loop shared by
 * `wait_for_result` (pgconn.c) and `wait_for_query_completion` (pgpool.c)
 * lives here.
 */
module Driver {
  import opened Wrappers
  import opened Text

  /** `ExecStatusType` of a libpq result. */
  datatype ExecStatus =
    | EmptyQuery | CommandOk | TuplesOk | CopyOut | CopyIn | BadResponse
    | NonfatalError | FatalError | CopyBoth | SingleTuple

  /** The rows of a result as text cells, and its field count. */
  datatype Table = Table(rows: seq<seq<string>>, fields: nat)

  /** A result as returned by `PQexec*` or `PQgetResult`. */
  datatype PgResult = PgResult(status: ExecStatus, errorMessage: string, table: Table)

  /** What a statement asked of the driver. */
  datatype Request =
    | Simple(sql: string)                          // PQexec / PQsendQuery
    | Params(sql: string, paramCount: int)         // PQexecParams / PQsendQueryParams
    | Prepare(name: string, sql: string, paramCount: int)  // PQprepare / PQsendPrepare
    | ExecPrepared(name: string, paramCount: int)  // PQexecPrepared / PQsendQueryPrepared

  /** What one pass of the readiness loop observes. */
  datatype PollEvent =
    | Interrupted                     // select() < 0 with errno == EINTR
    | SelectFailed(reason: string)    // select() < 0 otherwise; reason is strerror(errno)
    | Expired                         // select() == 0: the deadline passed
    | ConsumeFailed(message: string)  // PQconsumeInput == 0; message is PQerrorMessage
    | Consumed(busy: bool)            // input consumed; busy is PQisBusy

  /** Everything the driver answers during one statement. */
  datatype Reply = Reply(
    sendAccepted: bool,          // PQsend* returned 1
    driverError: string,         // PQerrorMessage after a refused send
    socketOk: bool,              // PQsocket >= 0
    events: seq<PollEvent>,      // the passes of the readiness loop, in order
    result: Option<PgResult>)    // PQexec* result, or the first PQgetResult

  const TimedOutMessage := "Query execution timed out"
  const BadSocketMessage := "Invalid socket file descriptor"
  const SelectFailedPrefix := "select() failed: "

  /** Size of the local buffer the `select()` failure text is formatted into. */
  const SelectBufferSize := 256

  /** How the readiness loop ends. `Blocked` means the events ran out while
      the loop was still waiting: the call has not returned yet. */
  datatype PollOutcome = Completed | Failed(message: string, cancelRequested: bool) | Blocked

  /** An event after which the loop goes round again. */
  predicate Continues(e: PollEvent) {
    e == Interrupted || e == Consumed(true)
  }

  /** How the loop ends at an event that stops it. */
  function StopOutcome(e: PollEvent): PollOutcome
    requires !Continues(e)
  {
    match e
    case SelectFailed(reason) => Failed(Truncate(SelectFailedPrefix + reason, SelectBufferSize - 1), false)
    case Expired => Failed(TimedOutMessage, true)
    case ConsumeFailed(m) => Failed(m, false)
    case Consumed(_) => Completed
  }

  /** The `while (true)` loop of pgconn.c:89-130 (and pgpool.c:493-527),
      one event per pass. */
  function Poll(events: seq<PollEvent>): (r: PollOutcome)
    ensures r.Failed? && r.cancelRequested ==> r.message == TimedOutMessage
  {
    if |events| == 0 then Blocked
    else if Continues(events[0]) then Poll(events[1..])
    else StopOutcome(events[0])
  }

  /** `i` is the index of the first event that stops the loop, or the
      length of the trace when none does. */
  ghost predicate FirstStop(events: seq<PollEvent>, i: nat) {
    && i <= |events|
    && (forall j | 0 <= j < i :: Continues(events[j]))
    && (i < |events| ==> !Continues(events[i]))
  }

  /** The loop's outcome is decided by the first stopping event alone:
      retries before it are invisible, events after it are never read. */
  lemma {:induction false} PollDecided(events: seq<PollEvent>, i: nat)
    requires FirstStop(events, i)
    ensures Poll(events) == if i == |events| then Blocked else StopOutcome(events[i])
  {
    if |events| > 0 && Continues(events[0]) {
      assert FirstStop(events[1..], i - 1) by {
        forall j | 0 <= j < i - 1 ensures Continues(events[1..][j]) {
          assert events[1..][j] == events[j + 1];
        }
      }
      PollDecided(events[1..], i - 1);
    }
  }

  /** Every trace has a first stopping event (or none at all). */
  lemma {:induction false} FirstStopExists(events: seq<PollEvent>) returns (i: nat)
    ensures FirstStop(events, i)
  {
    if |events| == 0 || !Continues(events[0]) {
      i := 0;
    } else {
      var k := FirstStopExists(events[1..]);
      i := k + 1;
      forall j | 0 <= j < i ensures Continues(events[j]) {
        if j > 0 {
          assert events[j] == events[1..][j - 1];
        }
      }
    }
  }

  /** The loop reports completion exactly when the first event that stops it
      is a pass after which the driver is no longer busy. */
  lemma PollCompletesIff(events: seq<PollEvent>)
    ensures Poll(events) == Completed <==>
      exists i: nat :: FirstStop(events, i) && i < |events| && events[i] == Consumed(false)
  {
    var i := FirstStopExists(events);
    PollDecided(events, i);
    forall k | FirstStop(events, k) ensures k == i {
      FirstStopUnique(events, i, k);
    }
  }

  /** A cancel request is issued exactly when the first stopping event is an
      expired deadline. */
  lemma PollCancelsIff(events: seq<PollEvent>)
    ensures (Poll(events).Failed? && Poll(events).cancelRequested) <==>
      exists i: nat :: FirstStop(events, i) && i < |events| && events[i] == Expired
  {
    var i := FirstStopExists(events);
    PollDecided(events, i);
    forall k | FirstStop(events, k) ensures k == i {
      FirstStopUnique(events, i, k);
    }
  }

  lemma FirstStopUnique(events: seq<PollEvent>, i: nat, k: nat)
    requires FirstStop(events, i) && FirstStop(events, k)
    ensures i == k
  {
  }

  /** Retries (EINTR, still busy) in front of a trace change nothing. */
  lemma {:induction false} PollSkipsRetries(prefix: seq<PollEvent>, rest: seq<PollEvent>)
    requires forall j | 0 <= j < |prefix| :: Continues(prefix[j])
    ensures Poll(prefix + rest) == Poll(rest)
  {
    if |prefix| > 0 {
      assert (prefix + rest)[1..] == prefix[1..] + rest;
      PollSkipsRetries(prefix[1..], rest);
    } else {
      assert prefix + rest == rest;
    }
  }

  /** The text `select()` failures are reported with fits the 256-byte
      buffer it is formatted into. */
  lemma SelectFailureFitsBuffer(events: seq<PollEvent>, reason: string)
    requires FirstStop(events, 0) && |events| > 0 && events[0] == SelectFailed(reason)
    ensures Poll(events).Failed? && !Poll(events).cancelRequested
    ensures |Poll(events).message| < SelectBufferSize
    ensures Poll(events).message <= SelectFailedPrefix + reason
  {
  }

  // ---------------------------------------------------------------------
  // From a reply to a verdict
  // ---------------------------------------------------------------------

  /** How a statement ends from the driver's side: a result the caller
      accepts, an error text (and whether a cancel was sent), or still in
      the readiness loop. */
  datatype Verdict = Accepted(result: PgResult) | Rejected(message: string, cancelRequested: bool) | Pending

  /** Success classification of pgconn.c:358-363: rows returned and command
      acknowledged both count. */
  const QueryAccepts: set<ExecStatus> := {CommandOk, TuplesOk}

  /** Prepare accepts only an acknowledged command (pgconn.c:624). */
  const PrepareAccepts: set<ExecStatus> := {CommandOk}

  /** Classifying the first result: none at all, an accepted status, or the
      server's error text. */
  function Classify(result: Option<PgResult>, noResult: string, accepts: set<ExecStatus>): (v: Verdict)
    ensures v.Accepted? <==> result.Some? && result.value.status in accepts
    ensures v.Accepted? ==> v.result == result.value
    ensures result.None? ==> v == Rejected(noResult, false)
    ensures result.Some? && result.value.status !in accepts ==> v == Rejected(result.value.errorMessage, false)
    ensures !v.Pending?
  {
    match result
    case None => Rejected(noResult, false)
    case Some(r) => if r.status in accepts then Accepted(r) else Rejected(r.errorMessage, false)
  }

  /** The asynchronous path: send, check the socket, run the readiness loop,
      then classify the first result. */
  function Await(reply: Reply, noResult: string, accepts: set<ExecStatus>): (v: Verdict)
    ensures v.Accepted? <==>
      reply.sendAccepted && reply.socketOk && Poll(reply.events) == Completed
      && reply.result.Some? && reply.result.value.status in accepts
    ensures v.Pending? <==> reply.sendAccepted && reply.socketOk && Poll(reply.events) == Blocked
    ensures v.Rejected? && v.cancelRequested ==> v.message == TimedOutMessage
    ensures !reply.sendAccepted ==> v == Rejected(reply.driverError, false)
  {
    if !reply.sendAccepted then Rejected(reply.driverError, false)
    else if !reply.socketOk then Rejected(BadSocketMessage, false)
    else
      match Poll(reply.events)
      case Blocked => Pending
      case Failed(m, cancel) => Rejected(m, cancel)
      case Completed => Classify(reply.result, noResult, accepts)
  }
}

=== FILE: pgiter.dfy ===
/**
 * The row iterator of pgiter.h: a cursor over the rows of a result.
 *
 * `Next` only reports whether rows remain; it is `Get` that moves the
 * cursor, one row per call, whichever field it reads.
 */
module PgIter {
  import opened Wrappers
  import opened Driver

  /** `pg_iterator_t`. */
  datatype Iter = Iter(result: Option<Table>, currentRow: nat, totalRows: nat, numFields: nat)

  /** The cursor stays within the result it was made for. */
  ghost predicate Valid(it: Iter) {
    && it.currentRow <= it.totalRows
    && (it.result.None? ==> it.totalRows == 0)
    && (it.result.Some? ==> it.totalRows == |it.result.value.rows|)
  }

  /** `pg_iter_create` (pgiter.h:20-27). */
  function Create(result: Option<Table>): (it: Iter)
    ensures Valid(it) && it.currentRow == 0 && it.result == result
    ensures result.None? ==> it.totalRows == 0 && it.numFields == 0
    ensures result.Some? ==> it.totalRows == |result.value.rows| && it.numFields == result.value.fields
  {
    match result
    case None => Iter(None, 0, 0, 0)
    case Some(t) => Iter(result, 0, |t.rows|, t.fields)
  }

  datatype Polled = Polled(iter: Iter, more: bool)

  /** `pg_iter_next` (pgiter.h:31-33): reports whether a row remains and
      leaves the cursor where it is. */
  function Next(it: Iter): (r: Polled)
    ensures r.iter == it
    ensures r.more <==> it.currentRow < it.totalRows
  {
    Polled(it, it.currentRow < it.totalRows)
  }

  /** `PQgetvalue` on a row known to exist: the text, or NULL for a field
      number outside the result. */
  function CellAt(t: Table, row: nat, field: int): (v: Option<string>)
    requires row < |t.rows|
    ensures v.Some? <==> 0 <= field < t.fields && field < |t.rows[row]|
  {
    if 0 <= field < t.fields && field < |t.rows[row]| then Some(t.rows[row][field]) else None
  }

  datatype Got = Got(iter: Iter, value: Option<string>)

  /** `pg_iter_get` (pgiter.h:38-41): past the end NULL and no move;
      otherwise the field of the current row, and the cursor moves on. */
  function Get(it: Iter, field: int): (r: Got)
    requires Valid(it)
    ensures Valid(r.iter)
    ensures it.currentRow >= it.totalRows ==> r == Got(it, None)
    ensures it.currentRow < it.totalRows ==>
      && r.iter == it.(currentRow := it.currentRow + 1)
      && r.value == CellAt(it.result.value, it.currentRow, field)
  {
    if it.currentRow >= it.totalRows then Got(it, None)
    else Got(it.(currentRow := it.currentRow + 1), CellAt(it.result.value, it.currentRow, field))
  }

  /** Reading two fields in a row reads them from two consecutive rows. */
  lemma SecondFieldIsFromNextRow(it: Iter, f: int, g: int)
    requires Valid(it) && it.currentRow + 1 < it.totalRows
    ensures Get(it, f).value == CellAt(it.result.value, it.currentRow, f)
    ensures Get(Get(it, f).iter, g).value == CellAt(it.result.value, it.currentRow + 1, g)
  {
  }

  /** The cursor after `n` successive `Get` calls on the same field. */
  function After(it: Iter, field: int, n: nat): (r: Iter)
    requires Valid(it)
    ensures Valid(r)
    decreases n
  {
    if n == 0 then it else After(Get(it, field).iter, field, n - 1)
  }

  /** The column `field` of a table, as a reference. */
  function Column(t: Table, field: int): (c: seq<Option<string>>)
    ensures |c| == |t.rows|
  {
    seq(|t.rows|, i requires 0 <= i < |t.rows| => CellAt(t, i, field))
  }

  /** The values successive `Get` calls on one field return, in order. */
  function Reads(it: Iter, field: int, n: nat): (vs: seq<Option<string>>)
    requires Valid(it)
    ensures |vs| == n
    decreases n
  {
    if n == 0 then []
    else
      var g := Get(it, field);
      [g.value] + Reads(g.iter, field, n - 1)
  }

  /** Reading one field `n` times from row `k` yields the column from row
      `k` on and leaves the cursor `n` rows further. */
  lemma {:induction false} ReadsColumn(it: Iter, field: int, n: nat)
    requires Valid(it) && it.result.Some? && it.currentRow + n <= it.totalRows
    ensures Reads(it, field, n) == Column(it.result.value, field)[it.currentRow..it.currentRow + n]
    ensures After(it, field, n) == it.(currentRow := it.currentRow + n)
    decreases n
  {
    if n > 0 {
      var g := Get(it, field);
      ReadsColumn(g.iter, field, n - 1);
      var c := Column(it.result.value, field);
      assert c[it.currentRow..it.currentRow + n] == [c[it.currentRow]] + c[it.currentRow + 1..it.currentRow + n];
    }
  }

  /** A fresh iterator over a table returns its whole column, in row order,
      and is then exhausted: `Next` says so and `Get` returns NULL. */
  lemma DrainColumn(t: Table, field: int)
    ensures Reads(Create(Some(t)), field, |t.rows|) == Column(t, field)
    ensures !Next(After(Create(Some(t)), field, |t.rows|)).more
    ensures Get(After(Create(Some(t)), field, |t.rows|), field).value.None?
  {
    ReadsColumn(Create(Some(t)), field, |t.rows|);
    assert Column(t, field)[0..|t.rows|] == Column(t, field);
  }
}

=== FILE: pgtypes.dfy ===
/**
 * The cell decoders of pgtypes.c.
 *
 * A cell is `Option<string>`: `None` when the value is SQL NULL or the
 * row/column lies outside the result (libpq reports both as null), and
 * otherwise the cell's text. Every decoder answers a value and a validity
 * flag, as the C functions do through their `bool *valid` argument.
 * `long` and `long long` are 64-bit (LP64).
 */
module PgTypes {
  import opened Wrappers
  import opened Text

  const IntMin := -0x8000_0000
  const IntMax := 0x7FFF_FFFF
  const LongMin := -0x8000_0000_0000_0000
  const LongMax := 0x7FFF_FFFF_FFFF_FFFF

  /** A decoded value with the flag written through `valid`. */
  datatype Decoded<T> = Decoded(value: T, valid: bool)

  // ---------------------------------------------------------------------
  // Integers
  // ---------------------------------------------------------------------

  /** The `strtol`/`strtoll` decoders without a range check
      (pgtypes.c:28-63): valid when the whole text is consumed. */
  function DecodeWhole(cell: Option<string>, lo: int, hi: int): (r: Decoded<int>)
    requires lo <= 0 <= hi
    ensures lo <= r.value <= hi
    ensures !r.valid ==> r.value == 0
    ensures r.valid <==> cell.Some? && StrToL(cell.value, lo, hi).end == |cell.value|
    ensures r.valid ==> r.value == StrToL(cell.value, lo, hi).value
  {
    match cell
    case None => Decoded(0, false)
    case Some(s) =>
      var p := StrToL(s, lo, hi);
      if p.end != |s| then Decoded(0, false) else Decoded(p.value, true)
  }

  /** `pg_get_int` (pgtypes.c:9-25): parsed as a `long`, then rejected
      unless it fits an `int`. */
  function GetInt(cell: Option<string>): (r: Decoded<int>)
    ensures IntMin <= r.value <= IntMax
    ensures !r.valid ==> r.value == 0
    ensures r.valid ==> DecodeWhole(cell, LongMin, LongMax) == r
  {
    var w := DecodeWhole(cell, LongMin, LongMax);
    if !w.valid || w.value < IntMin || w.value > IntMax then Decoded(0, false) else w
  }

  /** `pg_get_long` (pgtypes.c:28-44). */
  function GetLong(cell: Option<string>): (r: Decoded<int>)
    ensures LongMin <= r.value <= LongMax
    ensures !r.valid ==> r.value == 0
    ensures r.valid <==> cell.Some? && StrToL(cell.value, LongMin, LongMax).end == |cell.value|
    ensures r.valid ==> r.value == StrToL(cell.value, LongMin, LongMax).value
  {
    DecodeWhole(cell, LongMin, LongMax)
  }

  /** `pg_get_longlong` (pgtypes.c:47-63); `strtoll` has the same range as
      `strtol` under LP64. */
  function GetLongLong(cell: Option<string>): (r: Decoded<int>)
    ensures LongMin <= r.value <= LongMax
    ensures !r.valid ==> r.value == 0
    ensures r.valid <==> cell.Some? && StrToL(cell.value, LongMin, LongMax).end == |cell.value|
    ensures r.valid ==> r.value == StrToL(cell.value, LongMin, LongMax).value
  {
    DecodeWhole(cell, LongMin, LongMax)
  }

  /** A NULL cell decodes to an invalid zero. */
  lemma NullIsInvalid()
    ensures GetInt(None) == Decoded(0, false)
    ensures GetLong(None) == Decoded(0, false)
    ensures GetLongLong(None) == Decoded(0, false)
  {
  }

  /** An empty text is valid and reads as zero: `strtol` finds no digits,
      so the end pointer stays at the start, which is the terminator. */
  lemma EmptyReadsZero()
    ensures GetInt(Some("")) == Decoded(0, true)
    ensures GetLong(Some("")) == Decoded(0, true)
  {
  }

  /** `pg_get_int` reads back every `int` printed with `%d`. */
  lemma IntRoundTrip(v: int)
    requires IntMin <= v <= IntMax
    ensures GetInt(Some(FormatInt(v))) == Decoded(v, true)
  {
    StrToLFormatInt(v, LongMin, LongMax);
  }

  /** `pg_get_long` reads back every `long` printed with `%ld`. */
  lemma LongRoundTrip(v: int)
    requires LongMin <= v <= LongMax
    ensures GetLong(Some(FormatInt(v))) == Decoded(v, true)
    ensures GetLongLong(Some(FormatInt(v))) == Decoded(v, true)
  {
    StrToLFormatInt(v, LongMin, LongMax);
  }

  /** Leading white space and a sign are accepted; an `int` in range is
      decoded exactly. */
  lemma GetIntAccepts(sp: string, sg: string, ds: string)
    requires AllSpaces(sp) && SignText(sg) && AllDigits(ds) && |ds| > 0
    requires IntMin <= SignedValue(sg, ds) <= IntMax
    ensures GetInt(Some(sp + sg + ds)) == Decoded(SignedValue(sg, ds), true)
  {
    StrToLParses(sp, sg, ds, LongMin, LongMax);
  }

  /** A decimal text whose value does not fit an `int` is rejected, also
      when it does not even fit a `long`. */
  lemma GetIntRejectsOutOfRange(sp: string, sg: string, ds: string)
    requires AllSpaces(sp) && SignText(sg) && AllDigits(ds) && |ds| > 0
    requires SignedValue(sg, ds) < IntMin || SignedValue(sg, ds) > IntMax
    ensures GetInt(Some(sp + sg + ds)) == Decoded(0, false)
  {
    StrToLParses(sp, sg, ds, LongMin, LongMax);
  }

  /** Conversely, a non-empty text is only valid when it is white space,
      an optional sign and digits, with nothing after them. */
  lemma ValidMeansDecimal(s: string)
    requires s != ""
    requires GetInt(Some(s)).valid || GetLong(Some(s)).valid
    ensures DecimalSyntax(s)
  {
    StrToLConsumedIsDecimal(s, LongMin, LongMax);
  }

  /** As written, `pg_get_long` ignores `errno`: a decimal text beyond the
      `long` range is reported valid, with the value saturated. */
  lemma LongOverflowReportedValid(sp: string, sg: string, ds: string)
    requires AllSpaces(sp) && SignText(sg) && AllDigits(ds) && |ds| > 0
    ensures GetLong(Some(sp + sg + ds)) == Decoded(Clamp(SignedValue(sg, ds), LongMin, LongMax), true)
  {
    StrToLParses(sp, sg, ds, LongMin, LongMax);
  }

  /** The overflow made concrete: one past `LONG_MAX` reads as `LONG_MAX`. */
  lemma LongOverflowExample()
    ensures GetLong(Some(FormatInt(LongMax + 1))) == Decoded(LongMax, true)
  {
    StrToLFormatInt(LongMax + 1, LongMin - 1, LongMax + 1);
    var s := FormatInt(LongMax + 1);
    var ds := FormatNat(LongMax + 1);
    assert s == "" + "" + ds;
    FormatNatValue(LongMax + 1);
    StrToLParses("", "", ds, LongMin, LongMax);
  }

  /** `pg_get_long` with the overflow check `strtol` makes possible
      (`errno == ERANGE`): parsing against a range one wider on each side
      tells an exact bound from an overflow. */
  function GetLongChecked(cell: Option<string>): (r: Decoded<int>)
    ensures LongMin <= r.value <= LongMax
    ensures !r.valid ==> r.value == 0
  {
    var w := DecodeWhole(cell, LongMin - 1, LongMax + 1);
    if !w.valid || w.value < LongMin || w.value > LongMax then Decoded(0, false) else w
  }

  /** The checked decoder accepts a decimal text exactly when its value is a
      `long`, and then returns that value. */
  lemma GetLongCheckedExact(sp: string, sg: string, ds: string)
    requires AllSpaces(sp) && SignText(sg) && AllDigits(ds) && |ds| > 0
    ensures GetLongChecked(Some(sp + sg + ds)) ==
      if LongMin <= SignedValue(sg, ds) <= LongMax then Decoded(SignedValue(sg, ds), true) else Decoded(0, false)
  {
    StrToLParses(sp, sg, ds, LongMin - 1, LongMax + 1);
  }

  // ---------------------------------------------------------------------
  // Booleans
  // ---------------------------------------------------------------------

  /** The first characters `pg_get_bool` reads as true. */
  const TrueInitials: set<char> := {'t', 'T', '1', 'y', 'Y', 'o', 'O'}

  /** `pg_get_bool` (pgtypes.c:104-116): valid for every non-NULL cell;
      only the first character is looked at. */
  function GetBool(cell: Option<string>): (r: Decoded<bool>)
    ensures r.valid <==> cell.Some?
    ensures r.value ==> cell.Some? && |cell.value| > 0 && cell.value[0] in TrueInitials
    ensures cell.Some? && |cell.value| > 0 && cell.value[0] in TrueInitials ==> r.value
  {
    match cell
    case None => Decoded(false, false)
    case Some(s) => Decoded(|s| > 0 && s[0] in TrueInitials, true)
  }

  /** The spellings PostgreSQL accepts for a boolean. */
  const TrueWords: set<string> := {"t", "true", "1", "yes", "on", "y", "TRUE", "YES", "ON"}
  const FalseWords: set<string> := {"f", "false", "0", "no", "off", "n", "FALSE", "NO", "OFF"}

  /** As written, every true spelling reads as true, but so does "off",
      because it begins with the same letter as "on". */
  lemma BoolOffReadsTrue()
    ensures forall w | w in TrueWords :: GetBool(Some(w)) == Decoded(true, true)
    ensures GetBool(Some("off")) == Decoded(true, true)
    ensures GetBool(Some("OFF")) == Decoded(true, true)
    ensures GetBool(Some("")) == Decoded(false, true)
  {
  }

  /** `pg_get_bool` telling "on" from "off" by the second character. */
  function GetBoolFixed(cell: Option<string>): (r: Decoded<bool>)
    ensures r.valid <==> cell.Some?
    ensures r.value ==> cell.Some? && |cell.value| > 0 && cell.value[0] in TrueInitials
  {
    match cell
    case None => Decoded(false, false)
    case Some(s) =>
      var yes := |s| > 0 && s[0] in TrueInitials && (s[0] in {'o', 'O'} ==> |s| > 1 && s[1] in {'n', 'N'});
      Decoded(yes, true)
  }

  /** The fixed decoder reads every PostgreSQL spelling as meant. */
  lemma BoolFixedSpellings()
    ensures forall w | w in TrueWords :: GetBoolFixed(Some(w)) == Decoded(true, true)
    ensures forall w | w in FalseWords :: GetBoolFixed(Some(w)) == Decoded(false, true)
  {
  }

  /** The fix changes nothing for a text that does not begin with `o`. */
  lemma BoolFixedAgrees(cell: Option<string>)
    requires cell.Some? && |cell.value| > 0 ==> cell.value[0] !in {'o', 'O'}
    ensures GetBoolFixed(cell) == GetBool(cell)
  {
  }

  // ---------------------------------------------------------------------
  // Strings, bytes and UUIDs
  // ---------------------------------------------------------------------

  /** `pg_get_string` (pgtypes.c:120-128). */
  function GetString(cell: Option<string>): (r: Decoded<Option<string>>)
    ensures r.valid <==> cell.Some?
    ensures r.value == cell
  {
    Decoded(cell, cell.Some?)
  }

  const Nul: char := '\0'

  /** What `pg_get_string_buf` writes into the caller's buffer (the bytes
      from index 0, terminator included), what it returns, and the flag. */
  datatype Copied = Copied(written: seq<char>, count: nat, valid: bool)

  /** `pg_get_string_buf` (pgtypes.c:132-148): a bounded copy that always
      terminates the buffer when it has room. */
  function GetStringBuf(cell: Option<string>, bufSize: nat): (r: Copied)
    ensures |r.written| <= bufSize
    ensures bufSize == 0 ==> r == Copied([], 0, false)
    ensures bufSize > 0 ==> r.count < bufSize && |r.written| == r.count + 1 && r.written[r.count] == Nul
    ensures r.valid <==> cell.Some? && bufSize > 0
    ensures !r.valid ==> r.count == 0
    ensures r.valid ==> |r.written| == r.count + 1 && r.written[..r.count] == Truncate(cell.value, bufSize - 1)
  {
    if cell.None? || bufSize == 0 then
      Copied(if bufSize > 0 then [Nul] else [], 0, false)
    else
      var s := cell.value;
      var n := if |s| >= bufSize then bufSize - 1 else |s|;
      Copied(s[..n] + [Nul], n, true)
  }

  /** A text shorter than the buffer is copied whole; a longer one loses
      exactly its tail beyond `bufSize - 1` characters. */
  lemma StringBufCopies(s: string, bufSize: nat)
    requires bufSize > 0
    ensures |s| < bufSize ==> GetStringBuf(Some(s), bufSize) == Copied(s + [Nul], |s|, true)
    ensures |s| >= bufSize ==> GetStringBuf(Some(s), bufSize).count == bufSize - 1
    ensures GetStringBuf(Some(s), bufSize).written[..GetStringBuf(Some(s), bufSize).count] <= s
  {
    if |s| < bufSize {
      assert s[..|s|] == s;
    }
  }

  /** `pg_get_binary` (pgtypes.c:152-162): the data pointer, the length
      written through `length`, and the flag. */
  datatype Bytes = Bytes(data: Option<string>, length: nat, valid: bool)

  function GetBinary(cell: Option<string>): (r: Bytes)
    ensures r.valid <==> cell.Some?
    ensures cell.None? ==> r.data.None? && r.length == 0
    ensures cell.Some? ==> r.data == cell && r.length == |cell.value|
  {
    match cell
    case None => Bytes(None, 0, false)
    case Some(s) => Bytes(Some(s), |s|, true)
  }

  /** The binary view is the text view with its length. */
  lemma BinaryMatchesString(cell: Option<string>)
    ensures GetBinary(cell).data == GetString(cell).value
    ensures GetBinary(cell).valid == GetString(cell).valid
    ensures GetBinary(cell).valid ==> GetBinary(cell).length == |GetString(cell).value.value|
  {
  }

  /** The shape `pg_get_uuid` checks: 36 characters with hyphens after the
      8-4-4-4 groups. The group characters are not checked. */
  predicate UuidShape(s: string) {
    |s| == 36 && s[8] == '-' && s[13] == '-' && s[18] == '-' && s[23] == '-'
  }

  /** `pg_get_uuid` (pgtypes.c:165-177), with a `valid` pointer supplied. */
  function GetUuid(cell: Option<string>): (r: Decoded<Option<string>>)
    ensures r.valid <==> r.value.Some?
    ensures r.valid ==> r.value == cell
    ensures cell.None? ==> !r.valid
  {
    match cell
    case None => Decoded(None, false)
    case Some(s) => if UuidShape(s) then Decoded(Some(s), true) else Decoded(None, false)
  }

  /** Five groups joined by hyphens. */
  function Hyphenated(a: string, b: string, c: string, d: string, e: string): string {
    a + "-" + b + "-" + c + "-" + d + "-" + e
  }

  /** `pg_get_uuid` accepts a text exactly when it is five groups of 8, 4, 4,
      4 and 12 characters joined by hyphens. */
  lemma UuidAcceptsIff(s: string)
    ensures GetUuid(Some(s)).valid <==>
      exists a, b, c, d, e :: |a| == 8 && |b| == 4 && |c| == 4 && |d| == 4 && |e| == 12
                              && s == Hyphenated(a, b, c, d, e)
  {
    if UuidShape(s) {
      var a, b, c, d, e := s[..8], s[9..13], s[14..18], s[19..23], s[24..];
      assert s == Hyphenated(a, b, c, d, e);
    }
    forall a, b, c, d, e | |a| == 8 && |b| == 4 && |c| == 4 && |d| == 4 && |e| == 12
                           && s == Hyphenated(a, b, c, d, e)
      ensures UuidShape(s)
    {
      assert s[8] == '-' && s[13] == '-' && s[18] == '-' && s[23] == '-';
    }
  }

  // ---------------------------------------------------------------------
  // Fractional seconds of pg_get_timestamp
  // ---------------------------------------------------------------------

  const MicrosPerSecond := 1_000_000
  const NanosPerSecond := 1_000_000_000

  /** A fraction read as `value` over `digits` characters, brought to six
      digits of microseconds. */
  function Micros(value: nat, digits: nat): nat {
    if digits <= 6 then Scaled(value, Pow10(6 - digits)) else Divided(value, Pow10(digits - 6))
  }

  function Scaled(a: nat, b: nat): nat {
    MulNonNegative(a, b);
    a * b
  }

  function Divided(a: nat, b: nat): nat
    requires b > 0
  {
    DivNonNegative(a, b);
    a / b
  }

  lemma MulNonNegative(a: nat, b: nat)
    ensures a * b >= 0
  {
  }

  lemma DivNonNegative(a: nat, b: nat)
    requires b > 0
    ensures a / b >= 0
  {
  }

  lemma MicrosBound(value: nat, digits: nat)
    requires value < Pow10(digits)
    ensures Micros(value, digits) < MicrosPerSecond
  {
    if digits <= 6 {
      Pow10Add(digits, 6 - digits);
      assert value * Pow10(6 - digits) < Pow10(digits) * Pow10(6 - digits);
    } else {
      Pow10Add(6, digits - 6);
      DivBelow(value, Pow10(6), Pow10(digits - 6));
    }
    assert Pow10(6) == MicrosPerSecond;
  }

  lemma DivBelow(a: nat, m: nat, d: nat)
    requires d > 0 && a < m * d
    ensures a / d < m
  {
    var q := a / d;
    assert q * d <= a;
    assert (m - q) * d > 0;
    PositiveFactor(m - q, d);
  }

  lemma PositiveFactor(k: int, d: int)
    requires d > 0 && k * d > 0
    ensures k > 0
  {
  }

  /** The nanoseconds pgtypes.c:223-242 take from the text after the
      seconds: `.` then `strtol`; a fraction is only used when something
      was consumed and the value is not negative. The digit count is the
      number of characters `strtol` consumed, white space and sign
      included. */
  function FractionNanos(tail: string): (nsec: nat)
    ensures nsec < NanosPerSecond && nsec % 1000 == 0
  {
    if |tail| == 0 || tail[0] != '.' then 0
    else
      var p := StrToL(tail[1..], LongMin, LongMax);
      if p.end > 0 && p.value >= 0 then
        StrToLNonNegativeBound(tail[1..], LongMin, LongMax);
        MicrosBound(p.value, p.end);
        1000 * Micros(p.value, p.end)
      else 0
  }

  /** A fraction written with `k <= 6` digits is scaled up exactly; a longer
      one is truncated to microseconds. */
  lemma FractionOfDigits(ds: string)
    requires AllDigits(ds) && 0 < |ds| <= 18
    ensures |ds| <= 6 ==> FractionNanos("." + ds) == DigitsValue(ds) * Pow10(9 - |ds|)
    ensures |ds| > 6 ==> FractionNanos("." + ds) == 1000 * (DigitsValue(ds) / Pow10(|ds| - 6))
  {
    FractionParsesDigits(ds);
    if |ds| <= 6 {
      NanosScale(DigitsValue(ds), |ds|);
    }
  }

  /** After the point, a run of up to 18 digits is read exactly. */
  lemma FractionParsesDigits(ds: string)
    requires AllDigits(ds) && 0 < |ds| <= 18
    ensures ("." + ds)[1..] == ds
    ensures StrToL(ds, LongMin, LongMax) == Parsed(DigitsValue(ds), |ds|)
  {
    assert ("." + ds)[1..] == ds;
    assert ds == "" + "" + ds;
    StrToLParses("", "", ds, LongMin, LongMax);
    DigitsValueBound(ds);
    Pow10Monotone(|ds|, 18);
    Pow10Eighteen();
  }

  lemma Pow10Eighteen()
    ensures Pow10(18) == 1_000_000_000_000_000_000
  {
    assert Pow10(3) == 1000;
    Pow10Add(3, 3);
    Pow10Add(6, 6);
    Pow10Add(12, 6);
  }

  lemma NanosScale(v: nat, k: nat)
    requires k <= 6
    ensures 1000 * (v * Pow10(6 - k)) == v * Pow10(9 - k)
  {
    Pow10Add(6 - k, 3);
    assert Pow10(3) == 1000;
    assert Pow10(9 - k) == Pow10(6 - k) * 1000;
  }

  lemma DivStep(a: nat, k: nat)
    ensures (a / Pow10(k)) / 10 == a / Pow10(k + 1)
  {
    var b := Pow10(k);
    var q, r := a / b, a % b;
    var q2, r2 := q / 10, q % 10;
    assert a == b * q + r;
    assert q == 10 * q2 + r2;
    assert a == (b * 10) * q2 + (b * r2 + r) by {
      assert b * q == b * (10 * q2) + b * r2;
    }
    assert b * r2 <= b * 9 by {
      assert r2 <= 9;
    }
    assert 0 <= b * r2 + r < b * 10;
    DivUnique(a, b * 10, q2, b * r2 + r);
  }

  lemma DivUnique(a: int, d: int, q: int, r: int)
    requires d > 0 && 0 <= r < d && a == d * q + r
    ensures a / d == q
  {
    var q', r' := a / d, a % d;
    assert d * (q' - q) == r - r';
    SmallMultiple(q' - q, d);
  }

  /** A multiple of `d` strictly between `-d` and `d` is zero. */
  lemma SmallMultiple(k: int, d: int)
    requires d > 0 && -d < d * k < d
    ensures k == 0
  {
  }

  /** The two normalisation loops of pgtypes.c:231-238: multiply by ten
      up to six digits, or divide by ten down to six. */
  method ScaleToMicros(value: nat, digits: nat) returns (micros: nat)
    ensures micros == Micros(value, digits)
  {
    micros := value;
    var d := digits;
    while d < 6
      invariant digits <= 6 ==> digits <= d <= 6 && micros == value * Pow10(d - digits)
      invariant digits > 6 ==> d == digits && micros == value
      decreases 6 - d
    {
      assert value * Pow10(d + 1 - digits) == value * Pow10(d - digits) * 10;
      micros := micros * 10;
      d := d + 1;
    }
    while d > 6
      invariant digits <= 6 ==> d == 6 && micros == value * Pow10(6 - digits)
      invariant digits > 6 ==> 6 <= d <= digits && micros == value / Pow10(digits - d)
      decreases d
    {
      DivStep(value, digits - d);
      micros := micros / 10;
      d := d - 1;
    }
  }

  /** The fractional part as pgtypes.c:223-242 computes it, loops and all. */
  method TimestampFraction(tail: string) returns (nsec: nat)
    ensures nsec == FractionNanos(tail)
    ensures nsec < NanosPerSecond && nsec % 1000 == 0
  {
    nsec := 0;
    if |tail| > 0 && tail[0] == '.' {
      var p := StrToL(tail[1..], LongMin, LongMax);
      if p.end > 0 && p.value >= 0 {
        var micros := ScaleToMicros(p.value, p.end);
        nsec := micros * 1000;
      }
    }
  }
}

=== FILE: pool.dfy ===
/**
 * The pool bookkeeping of pgpool.c: creation, one pass of `pgpool_acquire`,
 * `pgpool_release`, `pgpool_destroy` and the three counters.
 *
 * The pool is a value. What the database would answer during a call is an
 * input: `probe(k)` is the outcome of the k-th `SELECT 1` validation and
 * `connect(k)` the outcome of the k-th connection attempt within that call.
 * The mutex and the condition variable are not modelled; a call that would
 * block on the condition variable ends in a `Waits` outcome instead.
 */
module Pool {
  import opened Wrappers
  import opened Pooled

  const UInt32Limit: nat := 0x1_0000_0000
  const SizeLimit: nat := 0x1_0000_0000_0000_0000

  /** `++next_conn_id` on a `uint32_t`. */
  function NextId(n: nat): (m: nat)
    ensures m < UInt32Limit
    ensures n + 1 < UInt32Limit ==> m == n + 1
  {
    (n + 1) % UInt32Limit
  }

  /** `x--` on a `size_t`. */
  function DecWrap(x: nat): (y: nat)
    ensures x > 0 ==> y == x - 1
    ensures x == 0 ==> y == SizeLimit - 1
  {
    if x == 0 then SizeLimit - 1 else x - 1
  }

  /** `a - b` on `size_t` operands. */
  function SubWrap(a: nat, b: nat): (d: nat)
    ensures d < SizeLimit
    ensures b <= a < SizeLimit ==> d == a - b
    ensures a < b && b - a < SizeLimit ==> d == SizeLimit - (b - a)
  {
    (a - b) % SizeLimit
  }

  /** `pgpool_config_t` without its callbacks: the connection counts are
      `size_t`, the connect time-out is an `int`. */
  datatype Config = Config(
    conninfo: Option<string>,
    minConnections: nat,
    maxConnections: nat,
    connectTimeout: int,
    autoReconnect: bool)

  const DefaultMin := 1
  const DefaultMax := 10
  const DefaultConnectTimeout := 5

  /** `struct pgpool`: the connection array is `slots`, whose length is
      `connection_count`. */
  datatype Pool = Pool(
    config: Config,
    slots: seq<Conn>,
    idleCount: nat,
    shuttingDown: bool,
    initialized: bool,
    nextConnId: nat)

  // ---------------------------------------------------------------------
  // Counting idle and busy slots
  // ---------------------------------------------------------------------

  function IdleIn(slots: seq<Conn>): (n: nat)
    ensures n <= |slots|
  {
    if |slots| == 0 then 0 else (if slots[0].inUse then 0 else 1) + IdleIn(slots[1..])
  }

  function BusyIn(slots: seq<Conn>): (n: nat)
    ensures n <= |slots|
  {
    if |slots| == 0 then 0 else (if slots[0].inUse then 1 else 0) + BusyIn(slots[1..])
  }

  function Weight(c: Conn): nat {
    if c.inUse then 0 else 1
  }

  lemma {:induction false} IdleInConcat(a: seq<Conn>, b: seq<Conn>)
    ensures IdleIn(a + b) == IdleIn(a) + IdleIn(b)
  {
    if |a| == 0 {
      assert a + b == b;
    } else {
      assert (a + b)[1..] == a[1..] + b;
      IdleInConcat(a[1..], b);
    }
  }

  lemma IdleInUpdate(s: seq<Conn>, i: nat, x: Conn)
    requires i < |s|
    ensures IdleIn(s[i := x]) == IdleIn(s) - Weight(s[i]) + Weight(x)
  {
    assert s == s[..i] + [s[i]] + s[i + 1..];
    assert s[i := x] == s[..i] + [x] + s[i + 1..];
    IdleInConcat(s[..i] + [s[i]], s[i + 1..]);
    IdleInConcat(s[..i], [s[i]]);
    IdleInConcat(s[..i] + [x], s[i + 1..]);
    IdleInConcat(s[..i], [x]);
  }

  lemma {:induction false} IdleInRemove(s: seq<Conn>, i: nat)
    requires i < |s|
    ensures IdleIn(s[..i] + s[i + 1..]) == IdleIn(s) - Weight(s[i])
  {
    var a, x, b := s[..i], [s[i]], s[i + 1..];
    assert s == (a + x) + b;
    IdleInConcat(a + x, b);
    IdleInConcat(a, x);
    IdleInConcat(a, b);
    assert x[1..] == [];
  }

  /** Every slot is idle or busy. */
  lemma {:induction false} IdleBusySplit(slots: seq<Conn>)
    ensures IdleIn(slots) + BusyIn(slots) == |slots|
  {
    if |slots| > 0 {
      IdleBusySplit(slots[1..]);
    }
  }

  lemma {:induction false} NoIdleAllBusy(slots: seq<Conn>)
    ensures IdleIn(slots) == 0 <==> forall j | 0 <= j < |slots| :: slots[j].inUse
  {
    if |slots| > 0 {
      NoIdleAllBusy(slots[1..]);
      assert forall j | 1 <= j < |slots| :: slots[j] == slots[1..][j - 1];
    }
  }

  /** The pool's bookkeeping agrees with its slots: the array never outgrows
      the `max_connections` entries it was allocated with, and `idle_count`
      is the number of slots not in use. */
  ghost predicate Inv(p: Pool) {
    && |p.slots| <= p.config.maxConnections
    && p.idleCount == IdleIn(p.slots)
  }

  // ---------------------------------------------------------------------
  // pgpool_create
  // ---------------------------------------------------------------------

  /** The checks of pgpool.c:183-192. */
  predicate Valid(cfg: Option<Config>) {
    && cfg.Some?
    && cfg.value.conninfo.Some?
    && cfg.value.maxConnections >= 1
    && cfg.value.minConnections <= cfg.value.maxConnections
  }

  /** Defaults overridden by the positive settings (pgpool.c:200-209). A
      `false` auto-reconnect never overrides the default `true`. */
  function Normalize(c: Config): (n: Config)
    ensures n.conninfo == c.conninfo && n.autoReconnect
    ensures n.minConnections >= 1 && n.maxConnections >= 1 && n.connectTimeout >= 1
    ensures c.minConnections >= 1 ==> n.minConnections == c.minConnections
    ensures c.maxConnections >= 1 ==> n.maxConnections == c.maxConnections
    ensures c.connectTimeout >= 1 ==> n.connectTimeout == c.connectTimeout
    ensures Valid(Some(c)) ==> n.minConnections <= n.maxConnections
  {
    Config(
      c.conninfo,
      if c.minConnections > 0 then c.minConnections else DefaultMin,
      if c.maxConnections > 0 then c.maxConnections else DefaultMax,
      if c.connectTimeout > 0 then c.connectTimeout else DefaultConnectTimeout,
      true)
  }

  datatype Built = Built(slots: seq<Conn>, nextId: nat)

  /** The eager loop of pgpool.c:240-249: `n` attempts, each of which
      consumes an id; the successful ones become idle slots. */
  function Eager(connect: nat -> bool, n: nat, start: nat): (b: Built)
    ensures |b.slots| <= n
    ensures forall j | 0 <= j < |b.slots| :: !b.slots[j].inUse
  {
    if n == 0 then Built([], start)
    else
      var b := Eager(connect, n - 1, start);
      var id := NextId(b.nextId);
      if connect(n - 1) then Built(b.slots + [Fresh(id)], id) else Built(b.slots, id)
  }

  /** The attempts that succeed. */
  function Successes(connect: nat -> bool, n: nat): set<nat> {
    set k: nat | k < n && connect(k)
  }

  /** The eager loop keeps exactly one slot per successful attempt, and the
      id counter advances once per attempt. */
  lemma {:induction false} EagerCounts(connect: nat -> bool, n: nat, start: nat)
    requires start < UInt32Limit
    ensures |Eager(connect, n, start).slots| == |Successes(connect, n)|
    ensures Eager(connect, n, start).nextId == (start + n) % UInt32Limit
  {
    if n > 0 {
      EagerCounts(connect, n - 1, start);
      var b := Eager(connect, n - 1, start);
      if connect(n - 1) {
        assert Successes(connect, n) == Successes(connect, n - 1) + {n - 1};
      } else {
        assert Successes(connect, n) == Successes(connect, n - 1);
      }
    }
  }

  datatype CreateError = InvalidConfig | NoConnections

  /** `pgpool_create` (pgpool.c:182-272). */
  function Create(cfg: Option<Config>, connect: nat -> bool): (r: Result<Pool, CreateError>)
    ensures r == Failure(InvalidConfig) <==> !Valid(cfg)
    ensures r.Success? ==>
      && Inv(r.value) && r.value.initialized && !r.value.shuttingDown
      && r.value.config.autoReconnect
      && 1 <= |r.value.slots| <= r.value.config.minConnections
      && r.value.idleCount == |r.value.slots|
  {
    if !Valid(cfg) then Failure(InvalidConfig)
    else
      var c := Normalize(cfg.value);
      var b := Eager(connect, c.minConnections, 0);
      if |b.slots| == 0 then Failure(NoConnections)
      else
        NoIdleAllBusy(b.slots);
        IdleBusySplit(b.slots);
        BusyNone(b.slots);
        Success(Pool(c, b.slots, |b.slots|, false, true, b.nextId))
  }

  lemma {:induction false} BusyNone(slots: seq<Conn>)
    requires forall j | 0 <= j < |slots| :: !slots[j].inUse
    ensures BusyIn(slots) == 0
  {
    if |slots| > 0 {
      assert forall j | 0 <= j < |slots| - 1 :: slots[1..][j] == slots[j + 1];
      BusyNone(slots[1..]);
    }
  }

  /** A valid configuration yields a pool exactly when one of the eager
      attempts connects, and the pool then holds one idle slot per success. */
  lemma CreateSucceedsIff(cfg: Option<Config>, connect: nat -> bool)
    requires Valid(cfg)
    ensures var n := Normalize(cfg.value).minConnections;
      && (Create(cfg, connect).Success? <==> exists k: nat :: k < n && connect(k))
      && (Create(cfg, connect).Success? ==>
            |Create(cfg, connect).value.slots| == |Successes(connect, n)|
            && Create(cfg, connect).value.nextConnId == n % UInt32Limit)
  {
    var n := Normalize(cfg.value).minConnections;
    EagerCounts(connect, n, 0);
    if exists k: nat :: k < n && connect(k) {
      var k: nat :| k < n && connect(k);
      assert k in Successes(connect, n);
    } else {
      assert Successes(connect, n) == {};
    }
  }

  // ---------------------------------------------------------------------
  // pgpool_acquire
  // ---------------------------------------------------------------------

  /** The database's answers during one acquire call. */
  datatype Oracle = Oracle(probe: nat -> bool, connect: nat -> bool)

  /** Where the scan for an idle slot ends: the pool afterwards, the slot
      handed out (if any), and how many probes and connection attempts it
      used. */
  datatype Scan = Scan(pool: Pool, found: Option<nat>, probes: nat, connects: nat)

  /** Marks slot `i` in use (pgpool.c:376-380); the count only goes down
      when it is positive. */
  function Take(p: Pool, i: nat, probes: nat, connects: nat): (r: Scan)
    requires i < |p.slots|
    ensures r.found == Some(i) && |r.pool.slots| == |p.slots|
    ensures r.pool.slots == p.slots[i := p.slots[i].(inUse := true)]
  {
    Scan(p.(slots := p.slots[i := p.slots[i].(inUse := true)],
            idleCount := if p.idleCount > 0 then p.idleCount - 1 else p.idleCount),
         Some(i), probes, connects)
  }

  function ScanMeasure(p: Pool, i: nat): nat {
    if i <= |p.slots| then |p.slots| - i else 0
  }

  /** The `for` loop of pgpool.c:353-384, from index `i`. An idle slot is
      validated when auto-reconnect is on; a stale one is replaced, or, when
      the replacement fails, removed by shifting the rest down. As written
      the loop then moves on to `i + 1`, so the slot shifted into `i` is not
      examined; `rescan` re-examines it instead. */
  function ScanFrom(p: Pool, i: nat, o: Oracle, probes: nat, connects: nat, rescan: bool): (r: Scan)
    ensures |r.pool.slots| <= |p.slots|
    ensures r.pool.config == p.config && r.pool.initialized == p.initialized
    ensures r.pool.shuttingDown == p.shuttingDown
    ensures r.found.Some? ==> r.found.value < |r.pool.slots| && r.pool.slots[r.found.value].inUse
    ensures r.probes >= probes && r.connects >= connects
    decreases ScanMeasure(p, i)
  {
    if i >= |p.slots| then Scan(p, None, probes, connects)
    else if p.slots[i].inUse then ScanFrom(p, i + 1, o, probes, connects, rescan)
    else if p.config.autoReconnect && !o.probe(probes) then
      var id := NextId(p.nextConnId);
      if o.connect(connects) then
        Take(p.(slots := p.slots[i := Fresh(id)], nextConnId := id), i, probes + 1, connects + 1)
      else
        var q := p.(slots := p.slots[..i] + p.slots[i + 1..], idleCount := DecWrap(p.idleCount), nextConnId := id);
        ScanFrom(q, if rescan then i else i + 1, o, probes + 1, connects + 1, rescan)
    else Take(p, i, if p.config.autoReconnect then probes + 1 else probes, connects)
  }

  /** What one pass of the acquire loop ends in. */
  datatype Acquisition =
    | Refused                          // pool missing or not initialised
    | ShutDown                         // the pool is shutting down
    | Handed(slot: nat, created: bool) // this slot was handed out
    | Exhausted                        // zero time-out: NULL without waiting
    | Waits(timed: bool)               // blocked on the condition variable

  datatype Step = Step(pool: Pool, outcome: Acquisition)

  function NoneAvailable(q: Pool, timeoutMs: int): Step {
    if timeoutMs == 0 then Step(q, Exhausted) else Step(q, Waits(timeoutMs > 0))
  }

  /** One pass of the `while (!pool->shutting_down)` loop of pgpool.c:351-415:
      scan for an idle slot, else grow the pool if there is room, else give
      up or wait according to the time-out. */
  function Pass(p: Pool, timeoutMs: int, o: Oracle, rescan: bool): (r: Step)
    ensures !p.initialized ==> r == Step(p, Refused)
    ensures p.initialized && p.shuttingDown ==> r == Step(p, ShutDown)
    ensures r.pool.config == p.config && r.pool.initialized == p.initialized
    ensures r.outcome.Handed? ==> r.outcome.slot < |r.pool.slots| && r.pool.slots[r.outcome.slot].inUse
    ensures r.outcome.Handed? && r.outcome.created ==>
      r.outcome.slot == |r.pool.slots| - 1 && |r.pool.slots| <= p.config.maxConnections
    ensures r.outcome.Handed? && !r.outcome.created ==> |r.pool.slots| <= |p.slots|
    ensures r.outcome == Exhausted ==> timeoutMs == 0
    ensures r.outcome.Waits? ==> timeoutMs != 0 && (r.outcome.timed <==> timeoutMs > 0)
  {
    if !p.initialized then Step(p, Refused)
    else if p.shuttingDown then Step(p, ShutDown)
    else
      var s := ScanFrom(p, 0, o, 0, 0, rescan);
      if s.found.Some? then Step(s.pool, Handed(s.found.value, false))
      else if |s.pool.slots| < s.pool.config.maxConnections then
        var id := NextId(s.pool.nextConnId);
        if o.connect(s.connects) then
          Step(s.pool.(slots := s.pool.slots + [Fresh(id).(inUse := true)], nextConnId := id),
               Handed(|s.pool.slots|, true))
        else NoneAvailable(s.pool.(nextConnId := id), timeoutMs)
      else NoneAvailable(s.pool, timeoutMs)
  }

  /** Every slot of the table is in use. */
  predicate AllBusy(slots: seq<Conn>) {
    forall j | 0 <= j < |slots| :: slots[j].inUse
  }

  /** `pgpool_acquire`, one pass, as written: the invariant is kept, and
      with every slot busy the pass grows the pool when there is room and
      the connection succeeds, and otherwise gives up (zero time-out) or
      waits. */
  function AcquireStep(p: Pool, timeoutMs: int, o: Oracle): (r: Step)
    ensures r.outcome.Handed? ==> r.outcome.slot < |r.pool.slots| && r.pool.slots[r.outcome.slot].inUse
    ensures Inv(p) ==> Inv(r.pool)
    ensures p.initialized && !p.shuttingDown && AllBusy(p.slots) ==>
      && (|p.slots| < p.config.maxConnections && o.connect(0) ==>
            r.outcome == Handed(|p.slots|, true) && |p.slots| < |r.pool.slots| && r.pool.slots[..|p.slots|] == p.slots)
      && (|p.slots| >= p.config.maxConnections || !o.connect(0) ==>
            r.outcome == (if timeoutMs == 0 then Exhausted else Waits(timeoutMs > 0)))
  {
    PassFacts(p, timeoutMs, o, false);
    Pass(p, timeoutMs, o, false)
  }

  /** `pgpool_acquire`, one pass, with the scan re-examining the slot that
      compaction shifts into place: besides what the pass as written
      promises, it only gives up or waits when no slot is idle, so
      `idle_count` is then 0. */
  function AcquireStepFixed(p: Pool, timeoutMs: int, o: Oracle): (r: Step)
    ensures r.outcome.Handed? ==> r.outcome.slot < |r.pool.slots| && r.pool.slots[r.outcome.slot].inUse
    ensures Inv(p) ==> Inv(r.pool)
    ensures p.initialized && !p.shuttingDown && AllBusy(p.slots) ==>
      && (|p.slots| < p.config.maxConnections && o.connect(0) ==>
            r.outcome == Handed(|p.slots|, true) && |p.slots| < |r.pool.slots| && r.pool.slots[..|p.slots|] == p.slots)
      && (|p.slots| >= p.config.maxConnections || !o.connect(0) ==>
            r.outcome == (if timeoutMs == 0 then Exhausted else Waits(timeoutMs > 0)))
    ensures r.outcome.Exhausted? || r.outcome.Waits? ==> AllBusy(r.pool.slots)
    ensures Inv(p) && (r.outcome.Exhausted? || r.outcome.Waits?) ==> r.pool.idleCount == 0
  {
    PassFacts(p, timeoutMs, o, true);
    Pass(p, timeoutMs, o, true)
  }

  /** What a pass promises, for either scan; the fixed scan also leaves no
      idle slot behind when it hands nothing out. */
  lemma PassFacts(p: Pool, timeoutMs: int, o: Oracle, rescan: bool)
    ensures Inv(p) ==> Inv(Pass(p, timeoutMs, o, rescan).pool)
    ensures var r := Pass(p, timeoutMs, o, rescan);
      p.initialized && !p.shuttingDown && AllBusy(p.slots) ==>
      && (|p.slots| < p.config.maxConnections && o.connect(0) ==>
            r.outcome == Handed(|p.slots|, true) && |p.slots| < |r.pool.slots| && r.pool.slots[..|p.slots|] == p.slots)
      && (|p.slots| >= p.config.maxConnections || !o.connect(0) ==>
            r.outcome == (if timeoutMs == 0 then Exhausted else Waits(timeoutMs > 0)))
    ensures var r := Pass(p, timeoutMs, o, rescan);
      rescan && (r.outcome.Exhausted? || r.outcome.Waits?) ==> AllBusy(r.pool.slots)
    ensures var r := Pass(p, timeoutMs, o, rescan);
      rescan && Inv(p) && (r.outcome.Exhausted? || r.outcome.Waits?) ==> r.pool.idleCount == 0
  {
    var r := Pass(p, timeoutMs, o, rescan);
    if Inv(p) {
      AcquireKeepsInv(p, timeoutMs, o, rescan);
    }
    if p.initialized && !p.shuttingDown {
      if AllBusy(p.slots) {
        ScanSkipsBusy(p, 0, |p.slots|, o, 0, 0, rescan);
      }
      if rescan {
        var scan := ScanFrom(p, 0, o, 0, 0, true);
        RescanLeavesNoIdle(p, 0, o, 0, 0);
        assert scan.found.None? ==> AllBusy(scan.pool.slots);
        if Inv(p) {
          NoIdleAllBusy(r.pool.slots);
        }
      }
    }
  }

  /** The scan keeps the bookkeeping exact: a hand-out or a removal of an
      idle slot lowers `idle_count` by one, a replacement leaves it. */
  lemma {:induction false} ScanKeepsInv(p: Pool, i: nat, o: Oracle, probes: nat, connects: nat, rescan: bool)
    requires Inv(p)
    ensures Inv(ScanFrom(p, i, o, probes, connects, rescan).pool)
    decreases ScanMeasure(p, i)
  {
    if i >= |p.slots| {
    } else if p.slots[i].inUse {
      ScanKeepsInv(p, i + 1, o, probes, connects, rescan);
    } else if p.config.autoReconnect && !o.probe(probes) {
      var id := NextId(p.nextConnId);
      if o.connect(connects) {
        var q := p.(slots := p.slots[i := Fresh(id)], nextConnId := id);
        IdleInUpdate(p.slots, i, Fresh(id));
        IdleInUpdate(q.slots, i, q.slots[i].(inUse := true));
      } else {
        var q := p.(slots := p.slots[..i] + p.slots[i + 1..], idleCount := DecWrap(p.idleCount), nextConnId := id);
        IdleInRemove(p.slots, i);
        ScanKeepsInv(q, if rescan then i else i + 1, o, probes + 1, connects + 1, rescan);
      }
    } else {
      IdleInUpdate(p.slots, i, p.slots[i].(inUse := true));
    }
  }

  /** Acquiring keeps the pool's invariant, whatever the database answers. */
  lemma AcquireKeepsInv(p: Pool, timeoutMs: int, o: Oracle, rescan: bool)
    requires Inv(p)
    ensures Inv(Pass(p, timeoutMs, o, rescan).pool)
  {
    if p.initialized && !p.shuttingDown {
      var s := ScanFrom(p, 0, o, 0, 0, rescan);
      ScanKeepsInv(p, 0, o, 0, 0, rescan);
      if s.found.None? && |s.pool.slots| < s.pool.config.maxConnections {
        var id := NextId(s.pool.nextConnId);
        IdleInConcat(s.pool.slots, [Fresh(id).(inUse := true)]);
      }
    }
  }

  /** Busy slots are passed over without a probe. */
  lemma {:induction false} ScanSkipsBusy(p: Pool, i: nat, k: nat, o: Oracle, probes: nat, connects: nat, rescan: bool)
    requires i <= k <= |p.slots|
    requires forall j | i <= j < k :: p.slots[j].inUse
    ensures ScanFrom(p, i, o, probes, connects, rescan) == ScanFrom(p, k, o, probes, connects, rescan)
    decreases k - i
  {
    if i < k {
      ScanSkipsBusy(p, i + 1, k, o, probes, connects, rescan);
    }
  }

  /** `k` is the first idle slot. */
  predicate FirstIdle(slots: seq<Conn>, k: nat) {
    k < |slots| && !slots[k].inUse && forall j | 0 <= j < k :: slots[j].inUse
  }

  /** When the first idle slot passes validation (or is replaced), it is the
      one handed out; a healthy slot is handed out unchanged but for the
      in-use flag, a replaced one is a fresh connection with the next id. */
  lemma AcquireHandsFirstIdle(p: Pool, timeoutMs: int, o: Oracle, k: nat)
    requires p.initialized && !p.shuttingDown && FirstIdle(p.slots, k)
    requires !p.config.autoReconnect || o.probe(0) || o.connect(0)
    ensures AcquireStep(p, timeoutMs, o).outcome == Handed(k, false)
    ensures !p.config.autoReconnect || o.probe(0) ==>
      AcquireStep(p, timeoutMs, o).pool.slots == p.slots[k := p.slots[k].(inUse := true)]
    ensures p.config.autoReconnect && !o.probe(0) ==>
      AcquireStep(p, timeoutMs, o).pool.slots[k] == Fresh(NextId(p.nextConnId)).(inUse := true)
  {
    ScanSkipsBusy(p, 0, k, o, 0, 0, false);
  }

  /** The scan as written can end without a hand-out while an idle slot
      remains: here the first of two idle slots is stale and cannot be
      replaced, the healthy second one is shifted into its place and passed
      over, and no new connection can be made, so the caller waits. */
  lemma SkippedIdleSlot()
    ensures var p := Pool(Config(Some("db"), 1, 2, 5, true),
                          [Fresh(1), Fresh(2)], 2, false, true, 2);
            var o := Oracle(k => k != 0, k => false);
            var r := AcquireStep(p, -1, o);
      && Inv(p)
      && r.outcome == Waits(false)
      && r.pool.slots == [Fresh(2)] && !r.pool.slots[0].inUse
  {
    var p := Pool(Config(Some("db"), 1, 2, 5, true), [Fresh(1), Fresh(2)], 2, false, true, 2);
    var o := Oracle(k => k != 0, k => false);
    var q := p.(slots := [Fresh(2)], idleCount := 1, nextConnId := 3);
    assert p.slots[..0] + p.slots[1..] == [Fresh(2)];
    assert ScanFrom(p, 0, o, 0, 0, false) == ScanFrom(q, 1, o, 1, 1, false);
  }

  /** With the fixed scan, a pass that ends without a hand-out has examined
      every slot: none of the remaining slots is idle. */
  lemma {:induction false} RescanLeavesNoIdle(p: Pool, i: nat, o: Oracle, probes: nat, connects: nat)
    requires i <= |p.slots|
    requires forall j | 0 <= j < i :: p.slots[j].inUse
    ensures var r := ScanFrom(p, i, o, probes, connects, true);
      r.found.None? ==> forall j | 0 <= j < |r.pool.slots| :: r.pool.slots[j].inUse
    decreases ScanMeasure(p, i)
  {
    if i < |p.slots| {
      if p.slots[i].inUse {
        RescanLeavesNoIdle(p, i + 1, o, probes, connects);
      } else if p.config.autoReconnect && !o.probe(probes) && !o.connect(connects) {
        var id := NextId(p.nextConnId);
        var q := p.(slots := p.slots[..i] + p.slots[i + 1..], idleCount := DecWrap(p.idleCount), nextConnId := id);
        assert forall j | 0 <= j < i :: q.slots[j] == p.slots[j];
        RescanLeavesNoIdle(q, i, o, probes + 1, connects + 1);
      }
    }
  }

  /** What the woken caller does after a wait (pgpool.c:402-414). */
  datatype Wake = Signalled | WaitTimedOut | WaitFailed

  /** Whether the loop goes round again: an untimed wait ignores the
      result, a timed wait returns NULL on any result but a signal. */
  function RetriesAfter(timed: bool, w: Wake): (again: bool)
    ensures !timed ==> again
    ensures timed ==> (again <==> w == Signalled)
  {
    !timed || w == Signalled
  }

  datatype Timespec = Timespec(sec: int, nsec: int)

  const NanosPerSecond := 1_000_000_000

  /** The absolute deadline of pgpool.c:340-346: now plus the time-out,
      with the nanoseconds carried into the seconds. */
  function Deadline(nowSec: int, nowUsec: int, timeoutMs: int): (ts: Timespec)
    requires timeoutMs > 0 && 0 <= nowUsec < 1_000_000
    ensures 0 <= ts.nsec < NanosPerSecond
    ensures ts.sec * NanosPerSecond + ts.nsec == nowSec * NanosPerSecond + nowUsec * 1000 + timeoutMs * 1_000_000
  {
    var sec := nowSec + timeoutMs / 1000;
    var nsec := nowUsec * 1000 + (timeoutMs % 1000) * 1_000_000;
    if nsec >= NanosPerSecond then Timespec(sec + 1, nsec - NanosPerSecond) else Timespec(sec, nsec)
  }

  // ---------------------------------------------------------------------
  // pgpool_release
  // ---------------------------------------------------------------------

  /** The first slot holding connection `id`. The source compares pointers;
      a connection's id stands for its pointer here. */
  function SlotOf(slots: seq<Conn>, id: nat): (r: Option<nat>)
    ensures r.Some? ==> r.value < |slots| && slots[r.value].id == id
    ensures r.Some? ==> forall j | 0 <= j < r.value :: slots[j].id != id
    ensures r.None? ==> forall j | 0 <= j < |slots| :: slots[j].id != id
  {
    if |slots| == 0 then None
    else if slots[0].id == id then Some(0)
    else match SlotOf(slots[1..], id)
      case None => None
      case Some(j) => Some(j + 1)
  }

  datatype Released = Released(pool: Pool, rolledBack: bool)

  /** `pgpool_release` (pgpool.c:422-466). `c` is the caller's connection
      as it stands; its slot gets it back, idle, without a transaction or an
      error. An open transaction is rolled back first. The in-use flag is
      not checked. */
  function Release(p: Pool, c: Conn): (r: Released)
    ensures !p.initialized || SlotOf(p.slots, c.id).None? ==> r == Released(p, false)
    ensures p.initialized && SlotOf(p.slots, c.id).Some? ==>
      var j := SlotOf(p.slots, c.id).value;
      && r.rolledBack == c.transactionActive
      && r.pool == p.(slots := p.slots[j := c.(inUse := false, transactionActive := false, lastError := None)],
                      idleCount := p.idleCount + 1)
  {
    if !p.initialized then Released(p, false)
    else match SlotOf(p.slots, c.id)
      case None => Released(p, false)
      case Some(j) =>
        Released(p.(slots := p.slots[j := c.(inUse := false, transactionActive := false, lastError := None)],
                    idleCount := p.idleCount + 1),
                 c.transactionActive)
  }

  /** Releasing a connection whose slot is in use keeps the invariant. */
  lemma ReleaseKeepsInv(p: Pool, c: Conn)
    requires Inv(p)
    requires SlotOf(p.slots, c.id).Some? ==> p.slots[SlotOf(p.slots, c.id).value].inUse
    ensures Inv(Release(p, c).pool)
  {
    if p.initialized && SlotOf(p.slots, c.id).Some? {
      var j := SlotOf(p.slots, c.id).value;
      IdleInUpdate(p.slots, j, c.(inUse := false, transactionActive := false, lastError := None));
    }
  }

  /** Releasing a connection that is already idle counts it twice: the
      invariant breaks and the active count wraps around. */
  lemma DoubleReleaseBreaksInv(p: Pool, c: Conn)
    requires Inv(p) && p.initialized
    requires SlotOf(p.slots, c.id).Some? && !p.slots[SlotOf(p.slots, c.id).value].inUse
    ensures !Inv(Release(p, c).pool)
    ensures Release(p, c).pool.idleCount == IdleIn(Release(p, c).pool.slots) + 1
    ensures |p.slots| < SizeLimit && BusyIn(p.slots) == 0 ==>
      ActiveConnections(Release(p, c).pool) == SizeLimit - 1
  {
    var j := SlotOf(p.slots, c.id).value;
    IdleInUpdate(p.slots, j, c.(inUse := false, transactionActive := false, lastError := None));
    IdleBusySplit(p.slots);
  }

  /** Acquire then release is a round trip: when the first idle slot is
      healthy and clean, releasing what was handed out restores the pool. */
  lemma AcquireReleaseRoundTrip(p: Pool, timeoutMs: int, o: Oracle, k: nat)
    requires Inv(p) && p.initialized && !p.shuttingDown && FirstIdle(p.slots, k)
    requires !p.config.autoReconnect || o.probe(0)
    requires forall j | 0 <= j < k :: p.slots[j].id != p.slots[k].id
    requires !p.slots[k].transactionActive && p.slots[k].lastError.None?
    ensures var a := AcquireStep(p, timeoutMs, o);
      && a.outcome == Handed(k, false)
      && Release(a.pool, a.pool.slots[k]) == Released(p, false)
  {
    AcquireHandsFirstIdle(p, timeoutMs, o, k);
    var a := AcquireStep(p, timeoutMs, o);
    ScanSkipsBusy(p, 0, k, o, 0, 0, false);
    IdleInUpdate(p.slots, k, p.slots[k].(inUse := true));
    assert a.pool.slots[..k] == p.slots[..k];
    assert SlotOf(a.pool.slots, p.slots[k].id) == Some(k) by {
      SlotOfFirst(a.pool.slots, k);
    }
    assert a.pool.slots[k := p.slots[k]] == p.slots;
  }

  lemma SlotOfFirst(slots: seq<Conn>, k: nat)
    requires k < |slots| && forall j | 0 <= j < k :: slots[j].id != slots[k].id
    ensures SlotOf(slots, slots[k].id) == Some(k)
  {
  }

  // ---------------------------------------------------------------------
  // pgpool_destroy
  // ---------------------------------------------------------------------

  const MaxDrainWaits := 10

  /** What tearing the pool down did: how many 100 ms waits it made, how
      many connections were still active when it gave up waiting, and the
      ids of the connections it closed, in array order. */
  datatype Teardown = Teardown(waits: nat, stillActive: nat, closed: seq<nat>)

  /** The idle count the destroying thread sees before its `k`-th check:
      first its own, then whatever concurrent releases left after each
      wait (`idleAfterWait(k)` after the `k + 1`-th sleep). */
  function Seen(p: Pool, idleAfterWait: nat -> nat, k: nat): nat {
    if k == 0 then p.idleCount else idleAfterWait(k - 1)
  }

  function Ids(slots: seq<Conn>): (ids: seq<nat>)
    ensures |ids| == |slots|
    ensures forall j | 0 <= j < |slots| :: ids[j] == slots[j].id
  {
    seq(|slots|, j requires 0 <= j < |slots| => slots[j].id)
  }

  /** `pgpool_destroy` (pgpool.c:275-321): nothing happens to an
      uninitialised pool; otherwise wait up to ten times for the active
      connections to come back, then close every connection. */
  method Destroy(p: Pool, idleAfterWait: nat -> nat) returns (r: Option<Teardown>)
    ensures !p.initialized ==> r.None?
    ensures p.initialized ==> r.Some?
    ensures r.Some? ==> r.value.waits <= MaxDrainWaits
    ensures r.Some? ==> forall k | 0 <= k < r.value.waits :: Seen(p, idleAfterWait, k) < |p.slots|
    ensures r.Some? && r.value.waits < MaxDrainWaits ==> Seen(p, idleAfterWait, r.value.waits) >= |p.slots|
    ensures r.Some? ==>
      r.value.stillActive == (var idle := Seen(p, idleAfterWait, r.value.waits);
                              if idle < |p.slots| then |p.slots| - idle else 0)
    ensures r.Some? ==> r.value.closed == Ids(p.slots)
  {
    if !p.initialized {
      return None;
    }
    var idle := p.idleCount;
    var waits := 0;
    while idle < |p.slots| && waits < MaxDrainWaits
      invariant waits <= MaxDrainWaits
      invariant idle == Seen(p, idleAfterWait, waits)
      invariant forall k | 0 <= k < waits :: Seen(p, idleAfterWait, k) < |p.slots|
      decreases MaxDrainWaits - waits
    {
      idle := idleAfterWait(waits);
      waits := waits + 1;
    }
    var stillActive := if idle < |p.slots| then |p.slots| - idle else 0;
    var closed: seq<nat> := [];
    for i := 0 to |p.slots|
      invariant closed == Ids(p.slots[..i])
    {
      closed := closed + [p.slots[i].id];
    }
    assert p.slots[..|p.slots|] == p.slots;
    return Some(Teardown(waits, stillActive, closed));
  }

  // ---------------------------------------------------------------------
  // Counters
  // ---------------------------------------------------------------------

  /** `pgpool_active_connections` (pgpool.c:803-812): a `size_t` difference. */
  function ActiveConnections(p: Pool): (n: nat)
    ensures n < SizeLimit
    ensures !p.initialized ==> n == 0
  {
    if !p.initialized then 0 else SubWrap(|p.slots|, p.idleCount)
  }

  /** `pgpool_idle_connections` (pgpool.c:815-824). */
  function IdleConnections(p: Pool): (n: nat)
    ensures !p.initialized ==> n == 0
  {
    if !p.initialized then 0 else p.idleCount
  }

  /** `pgpool_total_connections` (pgpool.c:827-836). */
  function TotalConnections(p: Pool): (n: nat)
    ensures !p.initialized ==> n == 0
  {
    if !p.initialized then 0 else |p.slots|
  }

  /** Under the invariant the counters describe the slots: active counts the
      busy ones, idle the others, and together they make the total. */
  lemma CountersAgree(p: Pool)
    requires Inv(p) && p.initialized && |p.slots| < SizeLimit
    ensures ActiveConnections(p) == BusyIn(p.slots)
    ensures IdleConnections(p) == IdleIn(p.slots)
    ensures ActiveConnections(p) + IdleConnections(p) == TotalConnections(p)
  {
    IdleBusySplit(p.slots);
  }
}

=== FILE: pooled.dfy ===
/**
 * The per-connection operations of pgpool.c (lines 469-800): the pool's own
 * copy of the statement calls, prepared statements and transaction flag.
 *
 * They differ from the standalone session in three ways that the model
 * keeps: the error slot is a heap copy (`Option<string>`), not a bounded
 * buffer, so nothing is truncated and an empty text is still "an error";
 * every statement goes through the readiness loop, even with no time-out;
 * and the DEALLOCATE command is built without a length limit.
 */
module Pooled {
  import opened Wrappers
  import opened Driver

  /** A pooled `pgconn_t` (pgpool.c:11-18). Its `raw_conn` is never NULL
      while it sits in a pool, so it has no `connected` flag; the activity
      timestamp is not modelled. */
  datatype Conn = Conn(id: nat, inUse: bool, transactionActive: bool, lastError: Option<string>)

  /** A connection as `create_connection` returns it (zeroed by `calloc`). */
  function Fresh(id: nat): (c: Conn)
    ensures c.id == id && !c.inUse && !c.transactionActive && c.lastError.None?
  {
    Conn(id, false, false, None)
  }

  datatype Call = Call(conn: Conn, sent: Option<Request>, outcome: Verdict)

  const InvalidQueryMessage := "Invalid connection or query"
  const InvalidStatementMessage := "Invalid connection or statement name"
  const InvalidPrepareMessage := "Invalid connection, statement name, or query"

  /** Records a rejection's text (`set_error_message` keeps a full copy). */
  function Settle(c: Conn, v: Verdict): Conn {
    match v
    case Rejected(m, _) => c.(lastError := Some(m))
    case _ => c
  }

  /** The shared body of `pgpool_execute`, `pgpool_query`, `pgpool_prepare`
      and `pgpool_execute_prepared`: refuse a missing request, otherwise
      clear the error and run the asynchronous path. */
  function Run(c: Conn, request: Option<Request>, invalid: string, noResult: string,
               accepts: set<ExecStatus>, reply: Reply): (r: Call)
    ensures r.conn.(lastError := c.lastError) == c
    ensures r.sent == request
    ensures r.outcome == (if request.None? then Rejected(invalid, false) else Await(reply, noResult, accepts))
    ensures r.outcome.Rejected? <==> r.conn.lastError.Some?
    ensures r.outcome.Rejected? ==> r.conn.lastError == Some(r.outcome.message)
  {
    if request.None? then Call(c.(lastError := Some(invalid)), None, Rejected(invalid, false))
    else
      var v := Await(reply, noResult, accepts);
      Call(Settle(c.(lastError := None), v), request, v)
  }

  /** `pgpool_execute` (pgpool.c:531-573). */
  function Execute(c: Conn, query: Option<string>, reply: Reply): (r: Call)
    ensures r.conn.(lastError := c.lastError) == c
    ensures query.Some? ==> r.sent == Some(Simple(query.value))
    ensures r.outcome.Accepted? <==>
      && query.Some? && reply.sendAccepted && reply.socketOk && Poll(reply.events) == Completed
      && reply.result.Some? && reply.result.value.status in {CommandOk, TuplesOk}
    ensures r.outcome.Accepted? ==> r.conn.lastError.None? && r.outcome.result == reply.result.value
    ensures query.Some? && reply.sendAccepted && reply.socketOk && Poll(reply.events) == Completed
            && reply.result.Some? && reply.result.value.status !in {CommandOk, TuplesOk} ==>
      r.conn.lastError == Some(reply.result.value.errorMessage)
  {
    var request := if query.Some? then Some(Simple(query.value)) else None;
    Run(c, request, InvalidQueryMessage, "No result received from query", QueryAccepts, reply)
  }

  datatype Fetched = Fetched(conn: Conn, result: Option<PgResult>)

  /** `pgpool_query` (pgpool.c:576-616): the accepted result is returned. */
  function Query(c: Conn, query: Option<string>, reply: Reply): (r: Fetched)
    ensures r.result.Some? <==> Execute(c, query, reply).outcome.Accepted?
    ensures r.result.Some? ==> r.result == reply.result
    ensures r.conn == Execute(c, query, reply).conn
  {
    var x := Execute(c, query, reply);
    Fetched(x.conn, if x.outcome.Accepted? then Some(x.outcome.result) else None)
  }

  /** `pgpool_prepare` (pgpool.c:619-658): only an acknowledged command
      counts. */
  function Prepare(c: Conn, name: Option<string>, query: Option<string>, paramCount: int, reply: Reply): (r: Call)
    ensures name.Some? && query.Some? ==> r.sent == Some(Driver.Prepare(name.value, query.value, paramCount))
    ensures name.None? || query.None? ==> r.sent.None? && r.conn.lastError == Some(InvalidPrepareMessage)
    ensures r.outcome.Accepted? <==>
      && name.Some? && query.Some? && reply.sendAccepted && reply.socketOk && Poll(reply.events) == Completed
      && reply.result.Some? && reply.result.value.status == CommandOk
  {
    var request := if name.Some? && query.Some? then Some(Driver.Prepare(name.value, query.value, paramCount)) else None;
    Run(c, request, InvalidPrepareMessage, "No result received from prepare", PrepareAccepts, reply)
  }

  /** `pgpool_execute_prepared` (pgpool.c:661-702). */
  function ExecutePrepared(c: Conn, name: Option<string>, paramCount: int, reply: Reply): (r: Call)
    ensures name.Some? ==> r.sent == Some(ExecPrepared(name.value, paramCount))
    ensures name.None? ==> r.sent.None? && r.conn.lastError == Some(InvalidStatementMessage)
    ensures r.outcome.Accepted? <==>
      && name.Some? && reply.sendAccepted && reply.socketOk && Poll(reply.events) == Completed
      && reply.result.Some? && reply.result.value.status in {CommandOk, TuplesOk}
  {
    var request := if name.Some? then Some(ExecPrepared(name.value, paramCount)) else None;
    Run(c, request, InvalidStatementMessage, "No result received from prepared statement", QueryAccepts, reply)
  }

  /** `pgpool_deallocate` (pgpool.c:705-729): the command buffer is sized to
      fit, so the name is never cut. */
  function Deallocate(c: Conn, name: Option<string>, reply: Reply): (r: Call)
    ensures name.Some? ==> r.sent == Some(Simple("DEALLOCATE " + name.value))
    ensures name.None? ==> r.sent.None? && r.conn.lastError == Some(InvalidStatementMessage)
    ensures r.outcome.Accepted? <==> name.Some? && Execute(c, Some("DEALLOCATE " + name.value), reply).outcome.Accepted?
  {
    if name.None? then Call(c.(lastError := Some(InvalidStatementMessage)), None, Rejected(InvalidStatementMessage, false))
    else Execute(c.(lastError := None), Some("DEALLOCATE " + name.value), reply)
  }

  const AlreadyActiveMessage := "Transaction already active"
  const NothingToCommitMessage := "No active transaction to commit"
  const NothingToRollbackMessage := "No active transaction to rollback"

  /** `pgpool_begin` (pgpool.c:732-746). */
  function Begin(c: Conn, reply: Reply): (r: Call)
    ensures c.transactionActive ==>
      r.sent.None? && r.outcome.Rejected? && r.conn == c.(lastError := Some(AlreadyActiveMessage))
    ensures !c.transactionActive ==> r.sent == Some(Simple("BEGIN"))
    ensures !c.transactionActive ==> (r.conn.transactionActive <==> r.outcome.Accepted?)
    ensures !c.transactionActive ==> r.outcome == Execute(c, Some("BEGIN"), reply).outcome
    ensures r.outcome.Accepted? <==>
      && !c.transactionActive && reply.sendAccepted && reply.socketOk && Poll(reply.events) == Completed
      && reply.result.Some? && reply.result.value.status in {CommandOk, TuplesOk}
  {
    if c.transactionActive then
      Call(c.(lastError := Some(AlreadyActiveMessage)), None, Rejected(AlreadyActiveMessage, false))
    else
      var x := Execute(c, Some("BEGIN"), reply);
      if x.outcome.Accepted? then x.(conn := x.conn.(transactionActive := true)) else x
  }

  /** Commit and rollback: refuse without an open transaction; otherwise run
      the statement and, once it has returned, clear the flag whatever the
      outcome. A call still in the readiness loop has not cleared it yet. */
  function EndTransaction(c: Conn, sql: string, refusal: string, reply: Reply): (r: Call)
    ensures !c.transactionActive ==>
      r.sent.None? && r.outcome.Rejected? && r.conn == c.(lastError := Some(refusal))
    ensures c.transactionActive ==> r.sent == Some(Simple(sql))
    ensures c.transactionActive && !r.outcome.Pending? ==> !r.conn.transactionActive
    ensures r.outcome.Pending? ==> r.conn.transactionActive
    ensures c.transactionActive ==>
      && r.outcome == Execute(c, Some(sql), reply).outcome
      && r.conn.lastError == Execute(c, Some(sql), reply).conn.lastError
    ensures r.outcome.Accepted? <==>
      && c.transactionActive && reply.sendAccepted && reply.socketOk && Poll(reply.events) == Completed
      && reply.result.Some? && reply.result.value.status in {CommandOk, TuplesOk}
  {
    if !c.transactionActive then
      Call(c.(lastError := Some(refusal)), None, Rejected(refusal, false))
    else
      var x := Execute(c, Some(sql), reply);
      if x.outcome.Pending? then x else x.(conn := x.conn.(transactionActive := false))
  }

  /** `pgpool_commit` (pgpool.c:749-761). */
  function Commit(c: Conn, reply: Reply): (r: Call)
    ensures !c.transactionActive ==> r.sent.None? && r.conn == c.(lastError := Some(NothingToCommitMessage))
    ensures c.transactionActive ==> r.sent == Some(Simple("COMMIT"))
    ensures c.transactionActive && !r.outcome.Pending? ==> !r.conn.transactionActive
    ensures c.transactionActive ==> r.outcome == Execute(c, Some("COMMIT"), reply).outcome
    ensures r.outcome.Accepted? <==>
      && c.transactionActive && reply.sendAccepted && reply.socketOk && Poll(reply.events) == Completed
      && reply.result.Some? && reply.result.value.status in {CommandOk, TuplesOk}
  {
    EndTransaction(c, "COMMIT", NothingToCommitMessage, reply)
  }

  /** `pgpool_rollback` (pgpool.c:764-776). */
  function Rollback(c: Conn, reply: Reply): (r: Call)
    ensures !c.transactionActive ==> r.sent.None? && r.conn == c.(lastError := Some(NothingToRollbackMessage))
    ensures c.transactionActive ==> r.sent == Some(Simple("ROLLBACK"))
    ensures c.transactionActive && !r.outcome.Pending? ==> !r.conn.transactionActive
    ensures c.transactionActive ==> r.outcome == Execute(c, Some("ROLLBACK"), reply).outcome
    ensures r.outcome.Accepted? <==>
      && c.transactionActive && reply.sendAccepted && reply.socketOk && Poll(reply.events) == Completed
      && reply.result.Some? && reply.result.value.status in {CommandOk, TuplesOk}
  {
    EndTransaction(c, "ROLLBACK", NothingToRollbackMessage, reply)
  }

  /** `pgpool_error_message` (pgpool.c:784-800): a stored error wins even
      when it is empty; then the driver's text; then a fixed message. */
  function ErrorMessage(conn: Option<Conn>, driverError: Option<string>): (r: string)
    ensures conn.None? ==> r == "Invalid connection"
    ensures conn.Some? && conn.value.lastError.Some? ==> r == conn.value.lastError.value
    ensures (conn.Some? && conn.value.lastError.None? && driverError.Some? && driverError.value != "") ==>
      r == driverError.value
    ensures (conn.Some? && conn.value.lastError.None? && (driverError.None? || driverError.value == "")) ==>
      r == "No error information available"
    ensures r == "" ==> conn.Some? && conn.value.lastError == Some("")
  {
    match conn
    case None => "Invalid connection"
    case Some(c) =>
      if c.lastError.Some? then c.lastError.value
      else if driverError.Some? && driverError.value != "" then driverError.value
      else "No error information available"
  }

  /** Unlike the standalone session, a pooled connection can report an empty
      error text: a statement the server answers with an empty-query result
      stores the empty server message, which then wins over the driver's. */
  lemma EmptyQueryLeavesEmptyError(c: Conn, reply: Reply, driverError: Option<string>)
    requires reply.sendAccepted && reply.socketOk && reply.events == [Consumed(false)]
    requires reply.result == Some(PgResult(EmptyQuery, "", Table([], 0)))
    ensures Execute(c, Some(""), reply).outcome.Rejected?
    ensures ErrorMessage(Some(Execute(c, Some(""), reply).conn), driverError) == ""
  {
  }
}

=== FILE: session.dfy ===
/**
 * The standalone session wrapper of pgconn.c: the bounded error slot, the
 * statement calls and their success classification, prepared statements,
 * the transaction flag, the reconnect limiter and the lock guard.
 *
 * Each call takes the driver's answers as a `Reply` and returns the new
 * session, the request handed to the driver (if any) and the verdict.
 */
module Session {
  import opened Wrappers
  import opened Text
  import opened Driver

  /** PGCONN_ERR_CAPACITY: 511 characters and the terminating NUL. */
  const ErrCapacity := 512

  /** Size of the buffer the DEALLOCATE command is formatted into. */
  const DeallocateBufferSize := 512

  const InvalidQueryMessage := "Invalid connection or query"
  const InvalidStatementMessage := "Invalid connection or statement name"
  const InvalidPrepareMessage := "Invalid connection, statement name, or query"
  const AlreadyActiveMessage := "Transaction already active"
  const NothingToCommitMessage := "No active transaction to commit"
  const NothingToRollbackMessage := "No active transaction to rollback"
  const ReconnectLimitMessage := "Maximum reconnection attempts exceeded"
  const InvalidConnectionMessage := "Invalid connection"
  const NoInformationMessage := "No error information available"

  /** One `pgconn_t`. The activity timestamp and the mutex itself are not
      modelled; `connected` says whether `raw_conn` is non-NULL. */
  datatype Session = Session(
    id: nat,
    connected: bool,
    lastError: string,
    reconnectAttempts: int,
    maxReconnectAttempts: int,
    threadSafe: bool,
    transactionActive: bool)

  /** `pgconn_query_opts_t`; a NULL pointer means `DefaultOpts`. */
  datatype QueryOpts = QueryOpts(timeoutMs: int, retryOnFailure: bool)

  const DefaultOpts := QueryOpts(-1, false)

  function TimeoutOf(opts: Option<QueryOpts>): int {
    opts.GetOr(DefaultOpts).timeoutMs
  }

  /** A statement call: the session afterwards, the request handed to the
      driver (None when the call refused before reaching it), and how it
      ended. */
  datatype Call = Call(session: Session, sent: Option<Request>, outcome: Verdict)

  /** `set_error` (pgconn.c:38-47): NULL or empty text clears the slot,
      anything else is copied up to the buffer's capacity. */
  function SetError(s: Session, message: Option<string>): (r: Session)
    ensures r.(lastError := s.lastError) == s
    ensures |r.lastError| < ErrCapacity
    ensures message.None? || message.value == "" ==> r.lastError == ""
    ensures message.Some? ==> r.lastError <= message.value
    ensures message.Some? && |message.value| < ErrCapacity ==> r.lastError == message.value
    ensures message.Some? && |message.value| >= ErrCapacity ==> |r.lastError| == ErrCapacity - 1
  {
    match message
    case None => s.(lastError := "")
    case Some(m) => if m == "" then s.(lastError := "") else s.(lastError := Truncate(m, ErrCapacity - 1))
  }

  /** Records a rejection's text in the error slot. */
  function Settle(s: Session, v: Verdict): Session {
    match v
    case Rejected(m, _) => SetError(s, Some(m))
    case _ => s
  }

  /** The shared body of `pgconn_execute`, `pgconn_query`,
      `pgconn_query_params_full` and `pgconn_execute_prepared_full`: refuse
      a missing connection or request; otherwise clear the error, then take
      the synchronous path for a negative timeout and the readiness loop
      otherwise, and classify the first result. */
  function Run(s: Session, request: Option<Request>, invalid: string, noResult: string,
               timeoutMs: int, reply: Reply): (c: Call)
    ensures c.session.(lastError := s.lastError) == s
    ensures c.sent == (if s.connected then request else None)
    ensures c.outcome.Accepted? <==>
      && s.connected && request.Some?
      && reply.result.Some? && reply.result.value.status in QueryAccepts
      && (timeoutMs < 0 || (reply.sendAccepted && reply.socketOk && Poll(reply.events) == Completed))
    ensures c.outcome.Accepted? ==> c.outcome.result == reply.result.value && c.session.lastError == ""
    ensures c.outcome.Pending? ==> c.session.lastError == ""
    ensures c.outcome.Rejected? ==> c.session == SetError(s, Some(c.outcome.message))
    ensures !s.connected || request.None? ==> c.outcome == Rejected(invalid, false)
    ensures timeoutMs < 0 ==> !c.outcome.Pending? && !(c.outcome.Rejected? && c.outcome.cancelRequested)
    ensures s.connected && request.Some? && reply.result.Some? && reply.result.value.status !in QueryAccepts
            && (timeoutMs < 0 || (reply.sendAccepted && reply.socketOk && Poll(reply.events) == Completed)) ==>
      && c.outcome == Rejected(reply.result.value.errorMessage, false)
      && c.session == SetError(s, Some(reply.result.value.errorMessage))
  {
    if !s.connected || request.None? then
      Call(SetError(s, Some(invalid)), None, Rejected(invalid, false))
    else
      var cleared := SetError(s, None);
      var v := if timeoutMs < 0 then Classify(reply.result, noResult, QueryAccepts)
               else Await(reply, noResult, QueryAccepts);
      Call(Settle(cleared, v), request, v)
  }

  /** `pgconn_execute` (pgconn.c:337-398). */
  function Execute(s: Session, query: Option<string>, opts: Option<QueryOpts>, reply: Reply): (c: Call)
    ensures c.session.(lastError := s.lastError) == s
    ensures s.connected && query.Some? ==> c.sent == Some(Simple(query.value))
    ensures c.outcome.Accepted? <==>
      && s.connected && query.Some?
      && reply.result.Some? && reply.result.value.status in {CommandOk, TuplesOk}
      && (TimeoutOf(opts) < 0 || (reply.sendAccepted && reply.socketOk && Poll(reply.events) == Completed))
    ensures opts.None? ==> !c.outcome.Pending?
    ensures s.connected && query.Some? && reply.result.Some? && reply.result.value.status !in {CommandOk, TuplesOk}
            && (TimeoutOf(opts) < 0 || (reply.sendAccepted && reply.socketOk && Poll(reply.events) == Completed)) ==>
      && c.outcome == Rejected(reply.result.value.errorMessage, false)
      && c.session == SetError(s, Some(reply.result.value.errorMessage))
  {
    var request := if query.Some? then Some(Simple(query.value)) else None;
    Run(s, request, InvalidQueryMessage, "No result received from query", TimeoutOf(opts), reply)
  }

  /** What `pgconn_query` hands back: the session and the result pointer. */
  datatype Fetched = Fetched(session: Session, result: Option<PgResult>)

  /** `pgconn_query` (pgconn.c:416-475): the same steps as `Execute`, but the
      accepted result is returned to the caller. */
  function Query(s: Session, query: Option<string>, opts: Option<QueryOpts>, reply: Reply): (r: Fetched)
    ensures r.result.Some? <==> Execute(s, query, opts, reply).outcome.Accepted?
    ensures r.result.Some? ==> r.result == reply.result
    ensures r.session == Execute(s, query, opts, reply).session
  {
    var c := Execute(s, query, opts, reply);
    Fetched(c.session, if c.outcome.Accepted? then Some(c.outcome.result) else None)
  }

  /** `pgconn_query_params_full` (pgconn.c:495-562): a negative parameter
      count is normalised to zero before the request is sent. */
  function QueryParamsFull(s: Session, query: Option<string>, paramCount: int, opts: Option<QueryOpts>,
                           reply: Reply): (c: Call)
    ensures c.session.(lastError := s.lastError) == s
    ensures s.connected && query.Some? ==>
      c.sent == Some(Params(query.value, if paramCount < 0 then 0 else paramCount))
    ensures !s.connected || query.None? ==> c.sent.None? && c.session.lastError == InvalidQueryMessage
    ensures c.outcome.Accepted? <==>
      && s.connected && query.Some?
      && reply.result.Some? && reply.result.value.status in {CommandOk, TuplesOk}
      && (TimeoutOf(opts) < 0 || (reply.sendAccepted && reply.socketOk && Poll(reply.events) == Completed))
    ensures s.connected && query.Some? && reply.result.None? && TimeoutOf(opts) < 0 ==>
      c.session.lastError == "No result received from parameterized query"
    ensures s.connected && query.Some? && reply.result.Some? && reply.result.value.status !in {CommandOk, TuplesOk}
            && (TimeoutOf(opts) < 0 || (reply.sendAccepted && reply.socketOk && Poll(reply.events) == Completed)) ==>
      && c.outcome == Rejected(reply.result.value.errorMessage, false)
      && c.session == SetError(s, Some(reply.result.value.errorMessage))
  {
    var n := if paramCount < 0 then 0 else paramCount;
    var request := if query.Some? then Some(Params(query.value, n)) else None;
    Run(s, request, InvalidQueryMessage, "No result received from parameterized query", TimeoutOf(opts), reply)
  }

  /** `pgconn_execute_prepared_full` (pgconn.c:652-715). */
  function ExecutePreparedFull(s: Session, name: Option<string>, paramCount: int, opts: Option<QueryOpts>,
                               reply: Reply): (c: Call)
    ensures s.connected && name.Some? ==> c.sent == Some(ExecPrepared(name.value, paramCount))
    ensures !s.connected || name.None? ==> c.session.lastError == InvalidStatementMessage && c.sent.None?
    ensures c.outcome.Accepted? <==>
      && s.connected && name.Some?
      && reply.result.Some? && reply.result.value.status in {CommandOk, TuplesOk}
      && (TimeoutOf(opts) < 0 || (reply.sendAccepted && reply.socketOk && Poll(reply.events) == Completed))
    ensures s.connected && name.Some? && reply.result.Some? && reply.result.value.status !in {CommandOk, TuplesOk}
            && (TimeoutOf(opts) < 0 || (reply.sendAccepted && reply.socketOk && Poll(reply.events) == Completed)) ==>
      && c.outcome == Rejected(reply.result.value.errorMessage, false)
      && c.session == SetError(s, Some(reply.result.value.errorMessage))
  {
    var request := if name.Some? then Some(ExecPrepared(name.value, paramCount)) else None;
    Run(s, request, InvalidStatementMessage, "No result received from prepared statement", TimeoutOf(opts), reply)
  }

  /** `pgconn_prepare` (pgconn.c:609-633): always synchronous, and only an
      acknowledged command counts as success. */
  function Prepare(s: Session, name: Option<string>, query: Option<string>, paramCount: int, reply: Reply): (c: Call)
    ensures c.session.(lastError := s.lastError) == s
    ensures c.outcome.Accepted? <==>
      s.connected && name.Some? && query.Some? && reply.result.Some? && reply.result.value.status == CommandOk
    ensures reply.result.Some? && reply.result.value.status == TuplesOk ==> !c.outcome.Accepted?
    ensures c.outcome.Rejected? ==> c.session == SetError(s, Some(c.outcome.message))
    ensures !c.outcome.Pending?
    ensures s.connected && name.Some? && query.Some? ==>
      c.sent == Some(Driver.Prepare(name.value, query.value, paramCount))
    ensures s.connected && name.Some? && query.Some? && reply.result.Some? && reply.result.value.status != CommandOk ==>
      && c.outcome == Rejected(reply.result.value.errorMessage, false)
      && c.session == SetError(s, Some(reply.result.value.errorMessage))
  {
    if !s.connected || name.None? || query.None? then
      Call(SetError(s, Some(InvalidPrepareMessage)), None, Rejected(InvalidPrepareMessage, false))
    else
      var v := Classify(reply.result, "No result received from prepare", PrepareAccepts);
      Call(Settle(SetError(s, None), v), Some(Driver.Prepare(name.value, query.value, paramCount)), v)
  }

  /** The command `pgconn_deallocate` runs: `snprintf` into a 512-byte buffer. */
  function DeallocateCommand(name: string): (q: string)
    ensures |q| < DeallocateBufferSize
    ensures q <= "DEALLOCATE " + name
    ensures |"DEALLOCATE " + name| < DeallocateBufferSize ==> q == "DEALLOCATE " + name
  {
    Truncate("DEALLOCATE " + name, DeallocateBufferSize - 1)
  }

  /** `pgconn_deallocate` (pgconn.c:761-775): a statement run through
      `Execute` with the default options, hence synchronously. */
  function Deallocate(s: Session, name: Option<string>, reply: Reply): (c: Call)
    ensures s.connected && name.Some? ==> c.sent == Some(Simple(DeallocateCommand(name.value)))
    ensures !s.connected || name.None? ==> c.sent.None? && c.session.lastError == InvalidStatementMessage
    ensures !c.outcome.Pending?
    ensures c.outcome.Accepted? <==>
      s.connected && name.Some? && reply.result.Some? && reply.result.value.status in {CommandOk, TuplesOk}
  {
    if !s.connected || name.None? then
      Call(SetError(s, Some(InvalidStatementMessage)), None, Rejected(InvalidStatementMessage, false))
    else
      Execute(SetError(s, None), Some(DeallocateCommand(name.value)), None, reply)
  }

  // ---------------------------------------------------------------------
  // Transactions
  // ---------------------------------------------------------------------

  /** `pgconn_begin` (pgconn.c:795-811). */
  function Begin(s: Session, reply: Reply): (c: Call)
    ensures s.transactionActive ==>
      c.sent.None? && c.outcome.Rejected? && c.session == s.(lastError := AlreadyActiveMessage)
    ensures !s.transactionActive ==> (c.session.transactionActive <==> c.outcome.Accepted?)
    ensures !s.transactionActive && s.connected ==> c.sent == Some(Simple("BEGIN"))
    ensures c.outcome.Accepted? <==>
      !s.transactionActive && s.connected && reply.result.Some? && reply.result.value.status in {CommandOk, TuplesOk}
    ensures !c.outcome.Pending?
  {
    if s.transactionActive then
      Call(SetError(s, Some(AlreadyActiveMessage)), None, Rejected(AlreadyActiveMessage, false))
    else
      var c := Execute(s, Some("BEGIN"), None, reply);
      if c.outcome.Accepted? then c.(session := c.session.(transactionActive := true)) else c
  }

  /** The shared shape of commit and rollback: refuse when no transaction is
      open, otherwise run the statement and clear the flag whatever it
      returned. */
  function EndTransaction(s: Session, sql: string, refusal: string, reply: Reply): (c: Call)
    ensures !s.transactionActive ==>
      c.sent.None? && c.outcome.Rejected? && c.session == SetError(s, Some(refusal))
    ensures s.transactionActive ==> !c.session.transactionActive
    ensures s.transactionActive && s.connected ==> c.sent == Some(Simple(sql))
    ensures s.transactionActive ==> c.outcome == Execute(s, Some(sql), None, reply).outcome
    ensures c.outcome.Accepted? <==>
      s.transactionActive && s.connected && reply.result.Some? && reply.result.value.status in {CommandOk, TuplesOk}
    ensures !c.outcome.Pending?
  {
    if !s.transactionActive then
      Call(SetError(s, Some(refusal)), None, Rejected(refusal, false))
    else
      var c := Execute(s, Some(sql), None, reply);
      c.(session := c.session.(transactionActive := false))
  }

  /** `pgconn_commit` (pgconn.c:829-843). */
  function Commit(s: Session, reply: Reply): (c: Call)
    ensures !s.transactionActive ==>
      c.sent.None? && c.outcome.Rejected? && c.session == s.(lastError := NothingToCommitMessage)
    ensures s.transactionActive ==> !c.session.transactionActive
    ensures s.transactionActive && s.connected ==> c.sent == Some(Simple("COMMIT"))
    ensures s.transactionActive ==> c.outcome == Execute(s, Some("COMMIT"), None, reply).outcome
    ensures c.outcome.Accepted? <==>
      s.transactionActive && s.connected && reply.result.Some? && reply.result.value.status in {CommandOk, TuplesOk}
  {
    EndTransaction(s, "COMMIT", NothingToCommitMessage, reply)
  }

  /** `pgconn_rollback` (pgconn.c:861-875). */
  function Rollback(s: Session, reply: Reply): (c: Call)
    ensures !s.transactionActive ==>
      c.sent.None? && c.outcome.Rejected? && c.session == s.(lastError := NothingToRollbackMessage)
    ensures s.transactionActive ==> !c.session.transactionActive
    ensures s.transactionActive && s.connected ==> c.sent == Some(Simple("ROLLBACK"))
    ensures s.transactionActive ==> c.outcome == Execute(s, Some("ROLLBACK"), None, reply).outcome
    ensures c.outcome.Accepted? <==>
      s.transactionActive && s.connected && reply.result.Some? && reply.result.value.status in {CommandOk, TuplesOk}
  {
    EndTransaction(s, "ROLLBACK", NothingToRollbackMessage, reply)
  }

  /** A transaction opened by a successful BEGIN is closed again by COMMIT,
      whatever the server answers to the COMMIT. */
  lemma BeginThenCommitCloses(s: Session, r1: Reply, r2: Reply)
    requires !s.transactionActive
    requires Begin(s, r1).outcome.Accepted?
    ensures Begin(s, r1).session.transactionActive
    ensures Commit(Begin(s, r1).session, r2).sent == Some(Simple("COMMIT"))
    ensures !Commit(Begin(s, r1).session, r2).session.transactionActive
    ensures Begin(Begin(s, r1).session, r2).sent.None?
  {
  }

  // ---------------------------------------------------------------------
  // Reconnection
  // ---------------------------------------------------------------------

  /** The limit check of pgconn.c:289; a non-positive maximum means no limit. */
  predicate LimitReached(s: Session) {
    s.maxReconnectAttempts > 0 && s.reconnectAttempts >= s.maxReconnectAttempts
  }

  /** What `pgconn_reconnect` leaves behind; `attempted` says whether the old
      connection was closed and a new one tried. */
  datatype Reconnected = Reconnected(session: Session, ok: bool, attempted: bool)

  /** `pgconn_reconnect` (pgconn.c:283-317); `connectOk` is whether the
      driver opens the new connection. */
  function Reconnect(s: Session, connectOk: bool): (r: Reconnected)
    ensures r.attempted <==> !LimitReached(s)
    ensures !r.attempted ==> !r.ok && r.session == s.(lastError := ReconnectLimitMessage)
    ensures r.attempted ==> r.ok == connectOk && r.session.connected == connectOk
    ensures r.attempted ==> !r.session.transactionActive && r.session.lastError == s.lastError
    ensures r.attempted && !connectOk ==> r.session.reconnectAttempts == s.reconnectAttempts + 1
    ensures r.ok ==> r.session.reconnectAttempts == 0
    ensures r.session.id == s.id && r.session.maxReconnectAttempts == s.maxReconnectAttempts
  {
    if LimitReached(s) then
      Reconnected(SetError(s, Some(ReconnectLimitMessage)), false, false)
    else
      var tried := s.(connected := false, transactionActive := false, reconnectAttempts := s.reconnectAttempts + 1);
      if connectOk then Reconnected(tried.(connected := true, reconnectAttempts := 0), true, true)
      else Reconnected(tried, false, true)
  }

  /** A series of reconnects with the given driver outcomes: the final
      session and how many of them reached the driver. */
  function ReconnectSeries(s: Session, outcomes: seq<bool>): (Session, nat)
    decreases |outcomes|
  {
    if |outcomes| == 0 then (s, 0)
    else
      var r := Reconnect(s, outcomes[0]);
      var (last, tries) := ReconnectSeries(r.session, outcomes[1..]);
      (last, tries + (if r.attempted then 1 else 0))
  }

  /** Against a server that never comes back, a limit of `m` with `a`
      attempts already made lets exactly `min(n, m - a)` of `n` reconnects
      reach the driver. */
  lemma {:induction false} ReconnectLimitBounds(s: Session, outcomes: seq<bool>)
    requires s.maxReconnectAttempts > 0 && 0 <= s.reconnectAttempts <= s.maxReconnectAttempts
    requires forall i | 0 <= i < |outcomes| :: !outcomes[i]
    ensures ReconnectSeries(s, outcomes).1 ==
      if |outcomes| <= s.maxReconnectAttempts - s.reconnectAttempts then |outcomes|
      else s.maxReconnectAttempts - s.reconnectAttempts
    decreases |outcomes|
  {
    if |outcomes| > 0 {
      var r := Reconnect(s, outcomes[0]);
      ReconnectLimitBounds(r.session, outcomes[1..]);
    }
  }

  // ---------------------------------------------------------------------
  // Error text, lock guard, time-out conversion
  // ---------------------------------------------------------------------

  /** `pgconn_error_message` (pgconn.c:915-932); `driverError` is what
      `PQerrorMessage` returns. The result is never empty (never NULL). */
  function ErrorMessage(conn: Option<Session>, driverError: Option<string>): (r: string)
    ensures r != ""
    ensures conn.None? ==> r == InvalidConnectionMessage
    ensures conn.Some? && conn.value.lastError != "" ==> r == conn.value.lastError
    ensures (conn.Some? && conn.value.lastError == "" && conn.value.connected
             && driverError.Some? && driverError.value != "") ==> r == driverError.value
    ensures (conn.Some? && conn.value.lastError == ""
             && (!conn.value.connected || driverError.None? || driverError.value == "")) ==> r == NoInformationMessage
  {
    match conn
    case None => InvalidConnectionMessage
    case Some(s) =>
      if s.lastError != "" then s.lastError
      else if s.connected && driverError.Some? && driverError.value != "" then driverError.value
      else NoInformationMessage
  }

  /** Whatever a call rejects with is what the next error query reports,
      cut to the error buffer. */
  lemma RejectionIsReported(s: Session, request: Option<Request>, invalid: string, noResult: string,
                            timeoutMs: int, reply: Reply, driverError: Option<string>)
    requires Run(s, request, invalid, noResult, timeoutMs, reply).outcome.Rejected?
    requires Run(s, request, invalid, noResult, timeoutMs, reply).outcome.message != ""
    ensures ErrorMessage(Some(Run(s, request, invalid, noResult, timeoutMs, reply).session), driverError) ==
      Truncate(Run(s, request, invalid, noResult, timeoutMs, reply).outcome.message, ErrCapacity - 1)
  {
  }

  /** `pgconn_trylock` (pgconn.c:1054-1060); `mutexFree` is whether
      `pthread_mutex_trylock` succeeds. */
  function TryLock(conn: Option<Session>, mutexFree: bool): (r: bool)
    ensures r ==> conn.Some? && conn.value.threadSafe && mutexFree
    ensures conn.Some? && conn.value.threadSafe && mutexFree ==> r
  {
    conn.Some? && conn.value.threadSafe && mutexFree
  }

  datatype Timeval = Timeval(sec: int, usec: int)

  /** The `struct timeval` built from a non-negative time-out
      (pgconn.c:83-87 and pgpool.c:497-500). */
  function TimevalOf(timeoutMs: int): (tv: Timeval)
    requires timeoutMs >= 0
    ensures 0 <= tv.usec < 1000000 && tv.usec % 1000 == 0
    ensures tv.sec >= 0 && tv.sec * 1000 + tv.usec / 1000 == timeoutMs
  {
    Timeval(timeoutMs / 1000, (timeoutMs % 1000) * 1000)
  }
}

=== FILE: text.dfy ===
/**
 * C-string helpers shared by the session, pool and decoder models.
 *
 * A C string is modelled as the `seq<char>` of the characters before its
 * terminating NUL, so a `string` here never needs an explicit terminator.
 * One `char` stands for one byte, and a text holds no NUL, so lengths are
 * the byte counts `strlen` and `snprintf` work with.
 * The C library's `strtol` (base 10) is modelled in full: leading white
 * space, an optional sign, the longest run of digits, and clamping to the
 * target range on overflow.
 */
module Text {

  /** The first `n` characters of `s`, or all of `s` when it is shorter:
      what `snprintf` keeps when it writes `s` into a buffer of `n + 1` bytes. */
  function Truncate(s: string, n: nat): (r: string)
    ensures |r| <= n && r <= s
    ensures |s| <= n ==> r == s
    ensures |s| > n ==> |r| == n
  {
    if |s| <= n then s else s[..n]
  }

  function Pow10(n: nat): (p: nat)
    ensures p >= 1
  {
    if n == 0 then 1 else 10 * Pow10(n - 1)
  }

  lemma {:induction false} Pow10Add(a: nat, b: nat)
    ensures Pow10(a + b) == Pow10(a) * Pow10(b)
  {
    if a > 0 {
      Pow10Add(a - 1, b);
    }
  }

  lemma Pow10Monotone(a: nat, b: nat)
    requires a <= b
    ensures Pow10(a) <= Pow10(b)
  {
    Pow10Add(a, b - a);
  }

  // ---------------------------------------------------------------------
  // Character classes of the C locale
  // ---------------------------------------------------------------------

  /** `isspace` in the C locale. */
  predicate IsSpace(c: char) {
    c == ' ' || c == '\t' || c == '\n' || c == '\U{000B}' || c == '\U{000C}' || c == '\r'
  }

  predicate IsDigit(c: char) {
    '0' <= c <= '9'
  }

  predicate IsSign(c: char) {
    c == '+' || c == '-'
  }

  function DigitValue(c: char): (d: nat)
    requires IsDigit(c)
    ensures d < 10
  {
    (c - '0') as nat
  }

  function DigitChar(d: nat): (c: char)
    requires d < 10
    ensures IsDigit(c) && DigitValue(c) == d
  {
    ('0' as int + d) as char
  }

  predicate AllSpaces(s: string) {
    forall i | 0 <= i < |s| :: IsSpace(s[i])
  }

  predicate AllDigits(s: string) {
    forall i | 0 <= i < |s| :: IsDigit(s[i])
  }

  /** The text a sign may occupy in front of the digits. */
  predicate SignText(s: string) {
    s == "" || s == "+" || s == "-"
  }

  /** Length of the longest prefix of `s` made of white space. */
  function SpanSpaces(s: string): (n: nat)
    ensures n <= |s|
    ensures AllSpaces(s[..n])
    ensures n < |s| ==> !IsSpace(s[n])
  {
    if |s| == 0 || !IsSpace(s[0]) then 0
    else
      var k := SpanSpaces(s[1..]);
      assert s[..1 + k] == [s[0]] + s[1..][..k];
      1 + k
  }

  /** Length of the longest prefix of `s` made of decimal digits. */
  function SpanDigits(s: string): (n: nat)
    ensures n <= |s|
    ensures AllDigits(s[..n])
    ensures n < |s| ==> !IsDigit(s[n])
  {
    if |s| == 0 || !IsDigit(s[0]) then 0
    else
      var k := SpanDigits(s[1..]);
      assert s[..1 + k] == [s[0]] + s[1..][..k];
      1 + k
  }

  /** The value of a run of decimal digits, most significant first. */
  function DigitsValue(ds: string): nat
    requires AllDigits(ds)
  {
    if |ds| == 0 then 0
    else DigitsValue(ds[..|ds| - 1]) * 10 + DigitValue(ds[|ds| - 1])
  }

  lemma {:induction false} DigitsValueBound(ds: string)
    requires AllDigits(ds)
    ensures DigitsValue(ds) < Pow10(|ds|)
  {
    if |ds| > 0 {
      DigitsValueBound(ds[..|ds| - 1]);
    }
  }

  // ---------------------------------------------------------------------
  // strtol(s, &end, 10)
  // ---------------------------------------------------------------------

  /** What `strtol` returns: the (clamped) value and the index `end` at
      which `*endptr` points. When no digits are found, `end` is 0. */
  datatype Parsed = Parsed(value: int, end: nat)

  function Clamp(v: int, lo: int, hi: int): (r: int)
    requires lo <= hi
    ensures lo <= r <= hi
    ensures lo <= v <= hi ==> r == v
  {
    if v < lo then lo else if v > hi then hi else v
  }

  /** Index of the first character after the white space and the sign. */
  function DigitsStart(s: string): (start: nat)
    ensures start <= |s|
  {
    var w := SpanSpaces(s);
    if w < |s| && IsSign(s[w]) then w + 1 else w
  }

  /** Whether the white space is followed by a minus sign. */
  predicate Negative(s: string) {
    var w := SpanSpaces(s);
    w < |s| && s[w] == '-'
  }

  /** `strtol(s, &end, 10)` for a target type whose range is `[lo, hi]`;
      overflow saturates at the bound that was crossed. */
  function StrToL(s: string, lo: int, hi: int): (p: Parsed)
    requires lo <= 0 <= hi
    ensures p.end <= |s|
    ensures lo <= p.value <= hi
    ensures p.end == 0 ==> p.value == 0
  {
    var start := DigitsStart(s);
    var n := SpanDigits(s[start..]);
    if n == 0 then Parsed(0, 0)
    else
      assert s[start..start + n] == s[start..][..n];
      var magnitude: int := DigitsValue(s[start..start + n]);
      Parsed(Clamp(if Negative(s) then -magnitude else magnitude, lo, hi), start + n)
  }

  /** The syntax `strtol` consumes completely: white space, an optional sign,
      then at least one digit. */
  ghost predicate DecimalSyntax(s: string) {
    exists sp, sg, ds ::
      AllSpaces(sp) && SignText(sg) && AllDigits(ds) && |ds| > 0 && s == sp + sg + ds
  }

  /** The signed value of a sign text followed by digits. */
  function SignedValue(sg: string, ds: string): int
    requires AllDigits(ds)
  {
    var magnitude: int := DigitsValue(ds);
    if sg == "-" then -magnitude else magnitude
  }

  /** `strtol` consumes white space, sign and digits completely and returns
      their value, clamped. */
  lemma StrToLParses(sp: string, sg: string, ds: string, lo: int, hi: int)
    requires lo <= 0 <= hi
    requires AllSpaces(sp) && SignText(sg) && AllDigits(ds) && |ds| > 0
    ensures StrToL(sp + sg + ds, lo, hi) == Parsed(Clamp(SignedValue(sg, ds), lo, hi), |sp + sg + ds|)
  {
    var s := sp + sg + ds;
    DigitsStartOf(sp, sg, ds);
    assert s[|sp| + |sg|..] == ds;
    SpanDigitsAll(ds);
    assert s[|sp| + |sg|..|s|] == ds;
  }

  lemma DigitsStartOf(sp: string, sg: string, ds: string)
    requires AllSpaces(sp) && SignText(sg) && AllDigits(ds) && |ds| > 0
    ensures DigitsStart(sp + sg + ds) == |sp| + |sg|
    ensures Negative(sp + sg + ds) <==> sg == "-"
  {
    var s := sp + sg + ds;
    assert s == sp + (sg + ds);
    SpanSpacesStops(sp, sg + ds);
    if sg == "" {
      assert s[|sp|] == ds[0];
    } else {
      assert s[|sp|] == sg[0];
    }
  }

  lemma SpanSpacesStops(sp: string, rest: string)
    requires AllSpaces(sp)
    requires |rest| > 0 ==> !IsSpace(rest[0])
    ensures SpanSpaces(sp + rest) == |sp|
  {
    if |sp| > 0 {
      assert (sp + rest)[1..] == sp[1..] + rest;
      SpanSpacesStops(sp[1..], rest);
    } else {
      assert sp + rest == rest;
    }
  }

  lemma SpanDigitsAll(ds: string)
    requires AllDigits(ds)
    ensures SpanDigits(ds) == |ds|
  {
    if |ds| > 0 {
      SpanDigitsAll(ds[1..]);
    }
  }

  /** Conversely, when `strtol` consumes a non-empty string completely, the
      string has the decimal syntax. */
  lemma StrToLConsumedIsDecimal(s: string, lo: int, hi: int)
    requires lo <= 0 <= hi
    requires |s| > 0 && StrToL(s, lo, hi).end == |s|
    ensures DecimalSyntax(s)
  {
    var w := SpanSpaces(s);
    var start := DigitsStart(s);
    var n := SpanDigits(s[start..]);
    assert n > 0 && start + n == |s|;
    var sp, sg, ds := s[..w], s[w..start], s[start..];
    assert s == sp + sg + ds;
    assert SignText(sg) by {
      if start > w {
        assert sg == [s[w]];
      }
    }
    assert ds == s[start..][..n];
  }

  /** A non-negative result of `strtol` is below ten to the power of the
      number of characters it consumed. */
  lemma StrToLNonNegativeBound(s: string, lo: int, hi: int)
    requires lo <= 0 <= hi
    requires StrToL(s, lo, hi).value >= 0
    ensures StrToL(s, lo, hi).value < Pow10(StrToL(s, lo, hi).end)
  {
    var start := DigitsStart(s);
    var n := SpanDigits(s[start..]);
    if n > 0 {
      var ds := s[start..start + n];
      assert ds == s[start..][..n];
      DigitsValueBound(ds);
      Pow10Monotone(n, start + n);
    }
  }

  // ---------------------------------------------------------------------
  // Decimal formatting (printf "%d"): the inverse of strtol
  // ---------------------------------------------------------------------

  function FormatNat(n: nat): (s: string)
    ensures |s| > 0 && AllDigits(s)
  {
    if n < 10 then [DigitChar(n)]
    else FormatNat(n / 10) + [DigitChar(n % 10)]
  }

  function FormatInt(v: int): (s: string)
    ensures |s| > 0
  {
    if v < 0 then "-" + FormatNat(-v) else FormatNat(v)
  }

  lemma {:induction false} FormatNatValue(n: nat)
    ensures DigitsValue(FormatNat(n)) == n
  {
    if n >= 10 {
      var s := FormatNat(n);
      assert s[..|s| - 1] == FormatNat(n / 10);
      FormatNatValue(n / 10);
    }
  }

  /** Round trip: `strtol` reads back every in-range value printed by `%d`,
      consuming the whole text. */
  lemma StrToLFormatInt(v: int, lo: int, hi: int)
    requires lo <= 0 <= hi && lo <= v <= hi
    ensures StrToL(FormatInt(v), lo, hi) == Parsed(v, |FormatInt(v)|)
  {
    var sg := if v < 0 then "-" else "";
    var m: nat := if v < 0 then -v else v;
    var ds := FormatNat(m);
    assert FormatInt(v) == "" + sg + ds;
    assert SignedValue(sg, ds) == v by {
      FormatNatValue(m);
    }
    StrToLParses("", sg, ds, lo, hi);
  }
}

=== FILE: wrappers.dfy ===
/** Optional values and results with an explicit error, standing in for the
    NULL pointers and error returns of the C code. */
module Wrappers {

  datatype Option<+T> = None | Some(value: T) {
    function GetOr(default: T): T {
      match this
      case Some(v) => v
      case None => default
    }
  }

  datatype Result<+T, +E> = Success(value: T) | Failure(error: E)
}
